=== FILE: README.md ===
# unifi-ddns: a Dafny model of the DDNS-to-Cloudflare worker

The worker is a Cloudflare Worker that speaks the DynDNS update dialect a
UniFi gateway uses. It receives a request such as
`GET /nic/update?hostname=home.example.com&myip=203.0.113.7` with HTTP Basic
credentials. It finds the Cloudflare zone and DNS record for each hostname
and overwrites the record's `content` with the address. It then answers
`good`, or with a status and a reason.

The repository holds three versions of this pipeline, and each one is its own module here:

- **TsWorker** models `src/index.ts`, the current worker.
  - It accepts any path ending in `/update`, and credentials from Basic auth or a `token` parameter.
  - It reads several hostname and address parameter names, and runs one update pass per address over the comma-separated hostnames.
  - It derives each hostname's zone from the username or from its last two labels, and caches zones within a pass.
  - It picks records by address family: `A` when the address contains a dot, `AAAA` otherwise.
  - `informAPI` derives each hostname's zone name inside its loop. The model derives all of them first (`TsWorker.Domains`). This changes nothing, because the name depends only on the hostname and the username.
- **JsWorker** models `src/index.js`.
  - It accepts only `/update` and `/nic/update`, and Basic auth is required.
  - `hostname` and `ip`/`myip` are checked before any call.
  - One zone is found from the username, and each hostname gets its first record of any type.
- **LegacyWorker** models `index.js`. It routes with a `switch` on the path and takes one hostname exactly as written. Its API client checks nothing, so a failed or empty reply becomes an engine TypeError.

Six modules are shared by all versions:

- **JsText**: JavaScript's `indexOf`, `split`, `trim`, `endsWith` and `includes`, with their edge cases.
  - `split` always returns at least one piece.
  - `trim` removes the ECMAScript white-space and line-terminator set.
- **Http**: requests, responses, the exception kinds, and the status rule `err.status || 500`.
- **Params**: `searchParams.get`, JavaScript `||` over `string | null`, and `verifyParameters`.
- **BasicAuth**: the RFC 7617 credential split at the first colon, and the CTL test of RFC 5234 appendix B.1.
- **Cloudflare**: the v4 API as a store plus a log of calls.
  - The store holds accepted tokens, zones by name, and records by zone id.
  - The log records every GET and PUT with its bearer token.
- **Options**: the option type.

Every operation is a pure function. It takes the API state and returns a
`Step`: the outcome together with the new API state. The properties are
stated over the call log:

- which zones were looked up;
- which records were written, with what;
- which token every call carried;
- and the store: only record contents ever change, and the store stays well formed.

Each worker's update is also characterised by when it succeeds. It answers
"good" exactly when the token is accepted and every hostname has a zone
holding a record the worker can pick, all judged in the store the request
starts from, since earlier writes change contents only.

The model follows the code:

- Hostnames within a pass are handled one after another, since each step is
  awaited. They are not handled concurrently.
- There is no "multiple zones" or "multiple records" error: the first zone
  or record listed is used.
- In `src/index.js` the error body is the stack trace, not the reason. The
  `catch` reads `err.reason`, which its `Error` subclasses never set.
- In `index.js` a missing record or zone is an engine TypeError (status 500
  with a stack trace), not a named reason.

## Model

| member | source | states |
|---|---|---|
| Http.ErrorStatus | src/index.ts:203 | `err.status \|\| 500`: status 400 exactly for bad requests, 401 exactly for unauthorized, and 500 exactly for API and engine errors |
| Params.Get | src/index.ts:151 | `searchParams.get`: None exactly when no pair has the name; otherwise the value of the first pair with it |
| Params.FirstTruthy | src/index.ts:153 | `a \|\| b \|\| …`: the first truthy candidate; when none is truthy, the last candidate, even an empty one |
| Params.HostnameParam | src/index.ts:153 | `hostname`, else `host`, else `domains`; null exactly when the first two are falsy and `domains` is absent |
| Params.AddressParam | src/index.ts:156 | `ips`, else `ip`, else `myip`, else the `Cf-Connecting-Ip` header; null exactly when `ips`, `ip` and `myip` are falsy and the `Cf-Connecting-Ip` header is absent |
| Params.VerifyParameters | src/index.js:118-132 | The hostname is checked before the address; each check has its own message; there is no error exactly when `hostname` and `ip \|\| myip` are both truthy |
| Params.LegacyAddress | src/index.js:136 | `ip \|\| myip`: `ip` when it is truthy, `myip` otherwise |
| JsText.IndexOf | src/index.ts:118 | `indexOf`: -1 exactly when the character is absent; otherwise the position of its first occurrence |
| JsText.Split | src/index.ts:154 | `split(',')` returns at least one piece, so `hostnames.length === 0` cannot happen |
| JsText.SplitPiecesFree | src/index.ts:154 | No piece of a split contains the separator |
| JsText.JoinSplit | src/index.ts:154 | Joining the pieces of a split with the separator gives back the text |
| JsText.SplitJoin | src/index.ts:154 | Splitting a join of separator-free pieces gives back the pieces |
| JsText.TrimStart | src/index.ts:164 | The result is a suffix of the input; only white space was dropped, and it does not start with white space |
| JsText.TrimEnd | src/index.ts:164 | The result is a prefix of the input; only white space was dropped, and it does not end with white space |
| JsText.TrimPadded | src/index.ts:164 | `trim` removes exactly the surrounding white space of a text that neither starts nor ends with white space |
| BasicAuth.SplitCredentials | src/index.ts:118-127 | Credentials exist exactly when the decoded text has a colon and no CTL; the user-id has no colon, and user-id, ":" and password rebuild the text |
| BasicAuth.CredentialsRoundTrip | src/index.ts:118-127 | A colon-free user-id and a password, both CTL-free, come back unchanged from splitting `user:password` |
| BasicAuth.SchemeIgnored | src/index.ts:116 | Only the word after the first space is decoded; the scheme and anything after a second space are ignored |
| BasicAuth.ParseAuthorization | src/index.js:77-92 | A decode failure is the engine's error, and a malformed value is 400 "Invalid authorization value."; success carries the decoded `user:password` split at the first colon |
| Cloudflare.Named | src/index.ts:62 | `dns_records?name=` lists exactly the zone's records of that name |
| Cloudflare.UpdateRecordCall | src/index.ts:73-76 | The PUT is logged with its token; it is accepted exactly when the token, zone and record id are known; a rejected PUT changes nothing |
| Cloudflare.FindZone | src/index.ts:50-58 | `findZone` succeeds exactly when the token is accepted and a zone has the name, and yields that zone; otherwise "Failed to find zone '…'" |
| Cloudflare.PutChangesOnlyContent | src/index.ts:71-83 | Writing back a stored record with new content changes only that content and no other record, keeps the store well formed, and leaves the new record stored |
| Cloudflare.HoldsKept | src/index.ts:71-83 | Writing contents neither adds nor removes a record of a given name, or of a given name and type, so earlier writes do not change what later hostnames find |
| Cloudflare.PutIdempotent | src/index.ts:71-83 | Writing the same content twice leaves the same store as writing it once |
| TsWorker.FirstOfType | src/index.ts:68 | `filter(type)[0]`: none exactly when no record has the type; otherwise the first record of the type |
| TsWorker.FirstOfTypeHolds | src/index.ts:60-69 | The named records include one of the family's type exactly when the zone holds a record of that name and type |
| TsWorker.FindRecord | src/index.ts:60-69 | One GET, filtered by `RecordType` (`A` when the address has a dot, else `AAAA`); it fails exactly when the reply is unsuccessful or the unfiltered list is empty; otherwise the first record of the address family, or `undefined` when the family has none |
| TsWorker.UpdateRecord | src/index.ts:71-83 | An `undefined` record is a TypeError before any call; otherwise one PUT of the record with the new content, which fails exactly when the API refuses it |
| TsWorker.LineStart | src/index.ts:184 | The position after the last line terminator; nothing after it is a line terminator |
| TsWorker.RegistrableDomainLabels | src/index.ts:184 | For `RegistrableDomain`, the regex replacement: on a single-line hostname, it yields the last two labels when both are non-empty, and the hostname otherwise |
| TsWorker.ReplacedOneLine | src/index.ts:184 | On a single line, the lazy `.*?` consumes everything in front of the group, so the replacement is the group alone |
| TsWorker.RegistrableDomainSuffix | src/index.ts:184 | On a single-line hostname, the derived domain is a suffix of the hostname |
| TsWorker.RegistrableDomainOfTwoLabels | src/index.ts:184 | Two non-empty dot-free labels joined by a dot are their own domain |
| TsWorker.RegistrableDomainIdempotent | src/index.ts:184 | Deriving the domain of a derived domain changes nothing |
| TsWorker.ZoneNameSuffix | src/index.ts:184 | For `ZoneName`, the username-or-regex choice: on a single-line hostname the zone name, whether the username or the regex domain, is a suffix of the hostname; a non-empty username is the zone name exactly when the hostname ends with it |
| TsWorker.ZoneNameIdempotent | src/index.ts:184 | On a single-line hostname, the zone name of the zone name is the zone name itself, so a hostname that is already a zone is looked up under its own name |
| TsWorker.CachedZone | src/index.ts:186-190 | A cache hit makes no call and returns the cached zone; a miss makes one zone lookup for the domain and returns the store's zone or an API error |
| TsWorker.Touch | src/index.ts:191-192 | The record half of one hostname only appends to the log, keeps tokens and zones, and fails with API or engine errors |
| TsWorker.Visit | src/index.ts:183-193 | One hostname only appends to the log; tokens and zones stay unchanged; its errors are API or engine errors |
| TsWorker.Pass | src/index.ts:183-193 | The loop over hostnames only appends to the log; tokens and zones stay unchanged; its errors are API or engine errors |
| TsWorker.InformApi | src/index.ts:177-194 | `informAPI` only appends to the log; tokens and zones stay unchanged; its errors are API or engine errors |
| TsWorker.VisitTokens | src/index.ts:85-93 | Every call of one hostname carries the bearer token |
| TsWorker.TouchTokens | src/index.ts:191-192 | Every call of the record half carries the bearer token |
| TsWorker.PassTokens | src/index.ts:178 | Every call of a pass carries the bearer token |
| TsWorker.VisitTargets | src/index.ts:189-192 | A hostname that succeeds adds exactly one write: its own name, the address's record type, and the address |
| TsWorker.TouchTargets | src/index.ts:191-192 | A record half that succeeds adds exactly one write: the hostname, the address's record type, and the address |
| TsWorker.PassTargets | src/index.ts:183-193 | A pass that succeeds writes every hostname once, in order, with the address and its record type |
| TsWorker.FreshDomainsDistinct | src/index.ts:181-188 | The domains a pass looks up have no duplicates, none of them was in the cache at the start, and each is the domain of one of its hostnames |
| TsWorker.FreshDomainsCover | src/index.ts:181-188 | Every hostname's domain was either cached at the start or is looked up |
| TsWorker.VisitLookups | src/index.ts:186-188 | A hostname looks its domain up exactly when the cache does not hold it, whatever the outcome |
| TsWorker.TouchLookups | src/index.ts:191-192 | The record half looks no zone up |
| TsWorker.PassLookups | src/index.ts:181-188 | Whatever the outcome, the zone lookups of a pass are a prefix of its fresh domains in order; a pass that succeeds looks up all of them |
| TsWorker.InformApiLookups | src/index.ts:181-188 | Whatever the outcome, `informAPI` looks up no domain twice and only domains of its hostnames; when it succeeds it has looked up each distinct domain exactly once |
| TsWorker.InformApiTargets | src/index.ts:183-193 | `informAPI` that succeeds writes every hostname once, in order, with the address and its record type |
| TsWorker.InformApiTokens | src/index.ts:178 | Every call of `informAPI` carries the bearer token |
| TsWorker.VisitZone | src/index.ts:186-190 | With a cache that agrees with the store, the zone used is the store's zone for the domain |
| TsWorker.PassCacheAgrees | src/index.ts:186-190 | The zone cache never disagrees with the store |
| TsWorker.VisitKeepsCache | src/index.ts:186-190 | A hostname that succeeds leaves a cache, with its zone added, that agrees with the store, and a store that differs only in contents |
| TsWorker.TouchSucceeds | src/index.ts:60-83 | The record half succeeds exactly when the token is accepted and the zone holds a record of the hostname with the family's type |
| TsWorker.VisitSucceeds | src/index.ts:184-192 | With an agreeing cache, one hostname succeeds exactly when the token is accepted, its zone name names a zone, and that zone holds its record of the family's type |
| TsWorker.PassSucceeds | src/index.ts:183-193 | A pass succeeds exactly when every hostname can be written, judged in the store the pass starts from |
| TsWorker.InformApiSucceeds | src/index.ts:177-194 | `informAPI` succeeds exactly when every hostname can be written: accepted token, a zone under its zone name, and a record of the family's type in it |
| TsWorker.VisitChangesOnlyContent | src/index.ts:191-192 | A hostname changes at most one record, picked by zone and id, and only its content; the store stays well formed |
| TsWorker.TouchChangesOnlyContent | src/index.ts:191-192 | A record half changes at most one record, picked by zone and id, and only its content; the store stays well formed |
| TsWorker.PassChangesOnlyContent | src/index.ts:183-193 | A pass changes at most record contents and keeps the store well formed |
| TsWorker.InformApiChangesOnlyContent | src/index.ts:177-194 | `informAPI` changes at most record contents and keeps the store well formed |
| TsWorker.ParseBasicAuth | src/index.ts:112-128 | A missing or empty header gives no credentials; otherwise a decode failure exactly when `atob` throws, 400 exactly when the decoded text has no colon or a CTL, and otherwise the text split at its first colon |
| TsWorker.ApiTokenSource | src/index.ts:151 | The token is the non-empty password, else the `token` parameter, else ""; it is empty exactly when both are falsy |
| TsWorker.UpdateAll | src/index.ts:163-165 | The loop over addresses only appends to the log; tokens and zones stay unchanged; its errors are API or engine errors |
| TsWorker.UpdateAllTargets | src/index.ts:163-165 | An update that succeeds writes every hostname once per trimmed address, address after address |
| TsWorker.UpdateAllTokens | src/index.ts:164 | Every call of an update carries the token |
| TsWorker.UpdateAllChangesOnlyContent | src/index.ts:163-165 | An update changes at most record contents and keeps the store well formed |
| TsWorker.UpdateAllSucceeds | src/index.ts:163-165 | An update succeeds exactly when every hostname can be written for every trimmed address, judged in the store it starts from |
| TsWorker.HandleRequest | src/index.ts:131-174 | The HTTPS gate comes first, then 204, then 404 for paths not ending in `/update`, then 404 without a header or `token=`; a missing hostname or address is 400, and that 400 happens only then; the only answers are 204, 404 and "good", and "good" needs an admitted request; when the credentials do not parse, their error is the answer and nothing is called |
| TsWorker.HandleRequestRunsUpdate | src/index.ts:146-173 | An admitted request with credentials and both parameters runs the update over the split lists, with the username and token; it answers "good" exactly when the update succeeds, and otherwise the update's error |
| TsWorker.HandleRequestGood | src/index.ts:146-173 | Such a request is answered "good" exactly when every listed hostname can be written for every listed address, in the store it starts from |
| TsWorker.HandleRequestUpdates | src/index.ts:147-165 | A "good" answer wrote every listed hostname once per listed address, and every call carried the credentials' token |
| TsWorker.HandleRequestChangesOnlyContent | src/index.ts:163-165 | No request changes anything but record contents |
| TsWorker.ErrorResponse | src/index.ts:198-210 | A bad request is 400, an API failure 500, each with its message as body; a TypeError is 500 with the engine's text; the engine's text appears exactly for a TypeError or an empty message |
| TsWorker.ErrorResponseInjective | src/index.ts:198-210 | Two exceptions with messages give the same response exactly when they are the same exception |
| TsWorker.FetchStatus | src/index.ts:196-212 | Statuses are 200, 204, 400, 404 and 500; 200 exactly for "good", 400 exactly for bad requests, and 500 exactly for the rest; never 401; an error body is the exception's message, or the engine's text for a TypeError |
| TsWorker.PlainHttpUpdateIs400 | src/index.ts:97-104 | A plain-HTTP `/update` request without credentials is answered 400 "Please use a HTTPS connection." and makes no call |
| JsWorker.FindRecord | src/index.js:32-39 | One GET; it fails exactly when the reply is unsuccessful or empty, with "Failed to find dns record '…'"; otherwise the first record of the name, of any type |
| JsWorker.UpdateRecord | src/index.js:41-55 | One PUT of the record with the new content; it fails exactly when the API refuses it, with "Failed to update dns record" |
| JsWorker.Visit | src/index.js:141-144 | One hostname only appends to the log, and its errors are API errors |
| JsWorker.Loop | src/index.js:141-144 | The loop only appends to the log, and its errors are API errors |
| JsWorker.InformApi | src/index.js:134-153 | `informAPI` only appends to the log, and its errors are API errors |
| JsWorker.VisitWritten | src/index.js:142-143 | A hostname that succeeds adds exactly one write: its own name with the address |
| JsWorker.VisitSucceeds | src/index.js:142-143 | One hostname succeeds exactly when the token is accepted and the zone holds a record of that name, of any type |
| JsWorker.VisitChangesOnlyContent | src/index.js:142-143 | One hostname changes at most one record, picked by zone and id, and only its content; the store stays well formed |
| JsWorker.LoopSucceeds | src/index.js:141-144 | The loop succeeds exactly when every hostname can be written, judged in the store the loop starts from |
| JsWorker.InformApiSucceeds | src/index.js:134-144 | `informAPI` succeeds exactly when the token is accepted, the username names a zone, and that zone holds a record of every hostname |
| JsWorker.LoopWritten | src/index.js:141-144 | A loop that succeeds writes every hostname once, in order, with the address |
| JsWorker.LoopLookups | src/index.js:141-144 | The loop never looks a zone up |
| JsWorker.InformApiLookups | src/index.js:140 | `informAPI` looks up exactly one zone, the username's, whatever the outcome |
| JsWorker.InformApiWritten | src/index.js:134-144 | An `informAPI` that succeeds writes every hostname once, in order |
| JsWorker.LoopTokens | src/index.js:57-65 | Every call of the loop carries the token |
| JsWorker.InformApiTokens | src/index.js:138 | Every call of `informAPI` carries the password as token |
| JsWorker.InformApiChangesOnlyContent | src/index.js:134-144 | `informAPI` changes at most record contents and keeps the store well formed |
| JsWorker.LoopChangesOnlyContent | src/index.js:41-55 | The loop changes at most record contents and keeps the store well formed |
| JsWorker.HandleRequest | src/index.js:94-116 | Routing order: HTTPS, 204, 404 for any path other than the two, 400 without a header, then `verifyParameters` before any call; "good" needs both parameters; when the credentials do not parse, their error is the answer and nothing is called |
| JsWorker.HandleRequestRunsUpdate | src/index.js:110-115 | An admitted request with credentials and valid parameters runs `informAPI` on the split `hostname` list with `ip \|\| myip`, the username and the password; it answers "good" exactly when that succeeds, and otherwise its error |
| JsWorker.HandleRequestGood | src/index.js:110-115 | Such a request is answered "good" exactly when the password is an accepted token, the username names a zone, and that zone holds a record of every listed hostname |
| JsWorker.HandleRequestUpdates | src/index.js:110-115 | A "good" answer looked up only the username's zone, wrote every listed hostname with the address, and every call carried the password |
| JsWorker.HandleRequestChangesOnlyContent | src/index.js:134-144 | No request changes anything but record contents |
| JsWorker.FetchStatus | src/index.js:155-171 | Statuses are 200, 204, 400, 404 and 500; 404 exactly for other paths; never 401; every error body is the stack trace, because the handler reads the `reason` no exception sets |
| LegacyWorker.FindZone | index.js:153-165 | An unsuccessful reply throws; an empty list yields `undefined`; otherwise the zone of the name |
| LegacyWorker.FindRecord | index.js:167-179 | An `undefined` zone throws before any call; an unsuccessful reply throws; otherwise the first record of the name, or `undefined` |
| LegacyWorker.UpdateRecord | index.js:181-196 | An `undefined` record throws before any call; a refused PUT throws on its null `result` |
| LegacyWorker.InformApi | index.js:50-74 | `informAPI` only appends to the log; its errors are engine errors |
| LegacyWorker.InformApiUpdates | index.js:50-74 | A successful `informAPI` made three calls, zone then record then PUT, with the username, the unsplit hostname and the address, each with the bearer token: the password, or `undefined` when the password is empty (index.js:149-151) |
| LegacyWorker.InformApiChangesOnlyContent | index.js:181-196 | `informAPI` changes at most one record, picked by zone and id, and only its content; the store stays well formed |
| LegacyWorker.InformApiSucceeds | index.js:50-64 | `informAPI` succeeds exactly when the bearer token is accepted, the username names a zone, and that zone holds a record of the hostname, of any type |
| LegacyWorker.HandleRequest | index.js:6-41 | HTTPS first, then the switch: the update paths need a header (400 otherwise) and `verifyParameters`, 204 for the two files, and 404 for anything else; when the credentials do not parse, their error is the answer and nothing is called |
| LegacyWorker.HandleRequestRunsUpdate | index.js:19-30 | An admitted request with credentials and valid parameters runs `informAPI` on the `hostname` parameter as written; it answers "good" exactly when that succeeds, and otherwise its error |
| LegacyWorker.HandleRequestGood | index.js:19-30 | Such a request is answered "good" exactly when the bearer token is accepted, the username names a zone, and that zone holds a record named by the whole `hostname` parameter |
| LegacyWorker.HandleRequestUpdates | index.js:50-64 | A "good" answer wrote exactly one record: the `hostname` parameter as written, commas included, with the address, and looked up only the username's zone |
| LegacyWorker.HandleRequestChangesOnlyContent | index.js:181-196 | No request changes anything but record contents |
| LegacyWorker.ErrorResponse | index.js:202-215 | A bad request is 400 with its reason as body, or "Unknown Error" when the reason is empty; a TypeError is 500 with the stack trace, and the stack trace appears only then |
| LegacyWorker.ErrorResponseInjective | index.js:202-215 | Two exceptions with reasons give the same response exactly when they are the same exception |
| LegacyWorker.FetchStatus | index.js:129-143 | Statuses are 200, 204, 400, 404 and 500; UnauthorizedException is never thrown, so there is never a 401; every 500 carries the stack trace, and a 400 carries its reason |

## Left out

- URL parsing is not modelled.
  - A request arrives already split into protocol, pathname and query pairs.
  - An unparsable URL, which makes `new URL` throw, is outside the model.
- Header lookup is a field per header. Case-insensitive header names are not modelled.
- Base64 decoding is a parameter `decode: string -> Option<string>`, and None means it threw. This covers `atob` everywhere, plus `TextDecoder` and `normalize()` in the two JavaScript versions.
- Network failures and JSON parse failures of the API are not modelled. A call fails only as the modelled store says.
- The API's own behaviour is abstracted:
  - `zones?name=` lists at most the one zone of that name;
  - a PUT replaces the record with that id;
  - `dns_records?name=` filters exactly by name, including the empty name that a list such as `a,,b` produces.
- Response headers and `statusText` are not modelled. Neither is `console.error` logging.
- Response bodies are modelled as follows:
  - An engine error's text (TypeError message or stack trace) is one opaque value, `EngineText`.
  - "Unknown Error" in `src/index.ts` is unreachable, since every `Error` has a stack.
- The return values of `updateRecord` (`body.result[0]`) are never used, so they are not modelled.
- Concurrent requests are not modelled. Each request runs against one API state from start to finish.
- The `!searchParams` branch of `verifyParameters` is not modelled, because `URL.searchParams` always exists.
- The `hostnames.length === 0` and `ips.length === 0` checks of `src/index.ts` are not modelled separately. `JsText.Split` proves that they can never be true.
- `JSON.stringify(record)` is the record datatype itself. Record fields beyond those in `DnsRecord` are not modelled.
- TsWorker.RegistrableDomainLabels, RegistrableDomainSuffix, RegistrableDomainIdempotent, ZoneNameSuffix, ZoneNameIdempotent: stated only for hostnames without line terminators. For hostnames with line terminators, the regex behaviour is given by the definition alone.
- TsWorker.TouchSucceeds, VisitSucceeds, PassSucceeds, InformApiSucceeds, UpdateAllSucceeds, HandleRequestGood, and JsWorker.VisitSucceeds, LoopSucceeds, InformApiSucceeds, HandleRequestGood, and LegacyWorker.InformApiSucceeds, HandleRequestGood: stated for well-formed stores only. A well-formed store files every record under its own zone and keeps record ids unique within a zone, which the real API guarantees and every operation here preserves.
- test/index.spec.ts is not part of this model. Its one test sends `http://example.com/update?...` without credentials and expects 401. The code answers 400 at the HTTPS gate (src/index.ts:97-104, called at src/index.ts:132), and so does the model (`TsWorker.PlainHttpUpdateIs400`).
- Strings are sequences of Dafny characters, not UTF-16 code units. For the `indexOf`, `split`, `trim` and `endsWith` uses modelled here, which look only at single characters from the ASCII and ECMAScript white-space sets, this makes no difference.

=== FILE: basic_auth.dfy ===
/** HTTP Basic credentials (section 2 of RFC 7617): the decoded
    "user-id:password" text is split at its first colon and refused when it
    holds a control character (CTL of RFC 5234 appendix B.1). The base64
    decoding is a parameter: `decode` returns None when it throws. */
module BasicAuth {
  import opened Options
  import opened JsText
  import opened Http

  datatype Credentials = Credentials(username: string, password: string)

  /** CTL = %x00-1F / %x7F. */
  predicate IsCtl(c: char)
  {
    c as int <= 0x1F || c as int == 0x7F
  }

  predicate HasCtl(s: string)
  {
    exists k :: 0 <= k < |s| && IsCtl(s[k])
  }

  const InvalidAuthorization := "Invalid authorization value."

  /** The decoded value split at its first colon; None when there is no
      colon or a control character anywhere (the password may hold colons). */
  function SplitCredentials(decoded: string): (r: Option<Credentials>)
    ensures r.Some? <==> ':' in decoded && !HasCtl(decoded)
    ensures r.Some? ==> decoded == r.value.username + ":" + r.value.password
                        && ':' !in r.value.username
  {
    var i := IndexOf(decoded, ':');
    if i == -1 || HasCtl(decoded) then None
    else
      assert decoded == decoded[..i] + ":" + decoded[i + 1..];
      Some(Credentials(decoded[..i], decoded[i + 1..]))
  }

  /** A colon-free user-id and any password, both free of control
      characters, come back unchanged from the split. */
  lemma CredentialsRoundTrip(username: string, password: string)
    requires ':' !in username
    requires !HasCtl(username) && !HasCtl(password)
    ensures SplitCredentials(username + ":" + password) == Some(Credentials(username, password))
  {
    var s := username + ":" + password;
    IndexOfAfterWord(username, ':', password);
    assert s[..|username|] == username;
    assert s[|username| + 1..] == password;
    forall k | 0 <= k < |s|
      ensures !IsCtl(s[k])
    {
      if k < |username| {
        assert s[k] == username[k];
      } else if k > |username| {
        assert s[k] == password[k - |username| - 1];
      }
    }
  }

  /** `const [, data] = authorization.split(' ')`: the second space-separated
      word. When there is none, `atob` receives `undefined`, which it reads
      as the text "undefined". */
  function AuthorizationData(header: string): string
  {
    var words := Split(header, ' ');
    if |words| >= 2 then words[1] else "undefined"
  }

  /** The scheme word in front of the data is never looked at: only the
      word after the first space is decoded. */
  lemma SchemeIgnored(scheme: string, data: string, more: string)
    requires ' ' !in scheme && ' ' !in data
    ensures AuthorizationData(scheme + " " + data) == data
    ensures AuthorizationData(scheme + " " + data + " " + more) == data
  {
    SplitAfterWord(scheme, ' ', data);
    assert IndexOf(data, ' ') == -1;
    assert scheme + " " + data + " " + more == scheme + [' '] + (data + [' '] + more);
    SplitAfterWord(scheme, ' ', data + [' '] + more);
    SplitAfterWord(data, ' ', more);
  }

  /** `parseBasicAuth` of src/index.js and `basicAuthentication` of
      index.js, and the part of src/index.ts after its empty-header check:
      decode the data word, then split it. */
  function ParseAuthorization(header: string, decode: string -> Option<string>): (r: Result<Credentials>)
    ensures r == Err(Engine(DecodeFailed)) <==> decode(AuthorizationData(header)).None?
    ensures r == Err(BadRequest(InvalidAuthorization))
            <==> decode(AuthorizationData(header)).Some? && SplitCredentials(decode(AuthorizationData(header)).value).None?
    ensures r.Ok? ==> decode(AuthorizationData(header)) == Some(r.value.username + ":" + r.value.password)
                      && ':' !in r.value.username && !HasCtl(r.value.username + ":" + r.value.password)
  {
    match decode(AuthorizationData(header))
    case None => Err(Engine(DecodeFailed))
    case Some(decoded) =>
      match SplitCredentials(decoded)
      case None => Err(BadRequest(InvalidAuthorization))
      case Some(credentials) => Ok(credentials)
  }
}

=== FILE: cloudflare.dfy ===
/** The Cloudflare v4 API as the worker sees it: a store of zones and DNS
    records behind three endpoints, each call answered with a `success` flag
    and a `result` list, and every call written to a log. The network is not
    modelled; a call fails exactly when the store says so. */
module Cloudflare {
  import opened Options
  import opened Http

  datatype Zone = Zone(id: string, name: string)

  /** A DNS record as the API returns it; `JSON.stringify` sends every field back. */
  datatype DnsRecord = DnsRecord(
    id: string,
    zoneId: string,        // `zone_id`
    name: string,
    rrType: string,        // `type`: "A", "AAAA", …
    content: string,
    proxied: bool,
    ttl: int,
    comment: Option<string>)

  /** The three requests `_fetchWithToken` makes, with the bearer token. */
  datatype Call =
    | ListZones(token: string, name: string)                        // GET zones?name=…
    | ListRecords(token: string, zoneId: string, name: string)      // GET zones/{id}/dns_records?name=…
    | PutRecord(token: string, zoneId: string, recordId: string, record: DnsRecord) // PUT zones/{id}/dns_records/{id}

  /** What the API knows: the tokens it accepts, the zones by name, and
      each zone's records by zone id. */
  datatype Store = Store(
    tokens: set<string>,
    zones: map<string, Zone>,
    records: map<string, seq<DnsRecord>>)

  datatype Api = Api(store: Store, log: seq<Call>)

  /** A reply body: `success: false` (its `result` is null) or a result list. */
  datatype Listing<T> = Unsuccessful | Listed(items: seq<T>)

  datatype Fetched<T> = Fetched(body: T, api: Api)

  /** The state an operation of the worker leaves behind, with its outcome. */
  datatype Step<T> = Step(result: Result<T>, api: Api)

  /** The final response of a request and the API state after it. */
  datatype Served = Served(response: Response, api: Api)

  /** The records of a list that carry the given name, in list order. */
  function Named(records: seq<DnsRecord>, name: string): (r: seq<DnsRecord>)
    ensures forall x :: x in r <==> x in records && x.name == name
    ensures |r| <= |records|
  {
    if |records| == 0 then []
    else if records[0].name == name then [records[0]] + Named(records[1..], name)
    else Named(records[1..], name)
  }

  predicate HasRecordId(records: seq<DnsRecord>, id: string)
  {
    exists k :: 0 <= k < |records| && records[k].id == id
  }

  /** The list with every record of the given id replaced by `record`. */
  function ReplaceRecord(records: seq<DnsRecord>, id: string, record: DnsRecord): (r: seq<DnsRecord>)
    ensures |r| == |records|
    ensures forall k :: 0 <= k < |r| ==> r[k] == (if records[k].id == id then record else records[k])
  {
    seq(|records|, k requires 0 <= k < |records| => if records[k].id == id then record else records[k])
  }

  /** GET zones?name=…: the zone of that exact name, if any. */
  function QueryZones(api: Api, token: string, name: string): (f: Fetched<Listing<Zone>>)
  {
    var api' := api.(log := api.log + [ListZones(token, name)]);
    if token !in api.store.tokens then Fetched(Unsuccessful, api')
    else if name in api.store.zones then Fetched(Listed([api.store.zones[name]]), api')
    else Fetched(Listed([]), api')
  }

  /** GET zones/{zoneId}/dns_records?name=…: the zone's records of that name, of any type. */
  function QueryRecords(api: Api, token: string, zoneId: string, name: string): (f: Fetched<Listing<DnsRecord>>)
  {
    var api' := api.(log := api.log + [ListRecords(token, zoneId, name)]);
    if token !in api.store.tokens || zoneId !in api.store.records then Fetched(Unsuccessful, api')
    else Fetched(Listed(Named(api.store.records[zoneId], name)), api')
  }

  /** Whether the API accepts a PUT to zones/{zoneId}/dns_records/{recordId}. */
  predicate PutAccepted(store: Store, token: string, zoneId: string, recordId: string)
  {
    token in store.tokens && zoneId in store.records && HasRecordId(store.records[zoneId], recordId)
  }

  /** PUT zones/{zoneId}/dns_records/{recordId}: the record is replaced by the body. */
  function UpdateRecordCall(api: Api, token: string, zoneId: string, recordId: string, record: DnsRecord): (f: Fetched<bool>)
    ensures f.api.log == api.log + [PutRecord(token, zoneId, recordId, record)]
    ensures f.body == PutAccepted(api.store, token, zoneId, recordId)
    ensures f.api.store.tokens == api.store.tokens && f.api.store.zones == api.store.zones
    ensures !f.body ==> f.api.store == api.store
  {
    var api' := api.(log := api.log + [PutRecord(token, zoneId, recordId, record)]);
    if PutAccepted(api.store, token, zoneId, recordId) then
      var records := api.store.records[zoneId := ReplaceRecord(api.store.records[zoneId], recordId, record)];
      Fetched(true, api'.(store := api.store.(records := records)))
    else Fetched(false, api')
  }

  /** `findZone` of src/index.ts and src/index.js: the first zone listed,
      or a CloudflareApiException when the reply is unsuccessful or empty. */
  function FindZone(token: string, name: string, api: Api): (r: Step<Zone>)
    ensures r.api == api.(log := api.log + [ListZones(token, name)])
    ensures r.result.Ok? <==> token in api.store.tokens && name in api.store.zones
    ensures r.result.Ok? ==> r.result.value == api.store.zones[name]
    ensures r.result.Err? ==> r.result.error == CloudflareApi("Failed to find zone '" + name + "'")
  {
    var f := QueryZones(api, token, name);
    match f.body
    case Listed(zones) =>
      if |zones| == 0 then Step(Err(CloudflareApi("Failed to find zone '" + name + "'")), f.api)
      else Step(Ok(zones[0]), f.api)
    case Unsuccessful => Step(Err(CloudflareApi("Failed to find zone '" + name + "'")), f.api)
  }

  /** The API's own consistency: a zone is filed under its name, every
      record is filed under its own zone id, and record ids are unique
      within a zone. */
  predicate WellFormed(store: Store)
  {
    && (forall name :: name in store.zones ==> store.zones[name].name == name)
    && (forall zoneId, k :: zoneId in store.records && 0 <= k < |store.records[zoneId]|
          ==> store.records[zoneId][k].zoneId == zoneId)
    && (forall zoneId, j, k :: zoneId in store.records && 0 <= j < k < |store.records[zoneId]|
          ==> store.records[zoneId][j].id != store.records[zoneId][k].id)
  }

  /** Whether zone `zoneId` holds a record of that name. */
  predicate HoldsName(store: Store, zoneId: string, name: string)
  {
    zoneId in store.records
    && exists k :: 0 <= k < |store.records[zoneId]| && store.records[zoneId][k].name == name
  }

  /** Whether zone `zoneId` holds a record of that name and type. */
  predicate HoldsRecord(store: Store, zoneId: string, name: string, rrType: string)
  {
    zoneId in store.records
    && exists k :: 0 <= k < |store.records[zoneId]|
                   && store.records[zoneId][k].name == name && store.records[zoneId][k].rrType == rrType
  }

  /** A listing by name is non-empty exactly when the zone holds a record of the name. */
  lemma NamedHolds(store: Store, zoneId: string, name: string)
    requires zoneId in store.records
    ensures Named(store.records[zoneId], name) != [] <==> HoldsName(store, zoneId, name)
  {
    var records := store.records[zoneId];
    if Named(records, name) != [] {
      assert Named(records, name)[0] in records;
    }
    if HoldsName(store, zoneId, name) {
      var k :| 0 <= k < |records| && records[k].name == name;
      assert records[k] in Named(records, name);
    }
  }

  /** `after` is `before` with nothing but record contents changed. */
  predicate SameExceptContent(before: DnsRecord, after: DnsRecord)
  {
    before.(content := after.content) == after
  }

  predicate OnlyContentChanged(before: Store, after: Store)
  {
    && after.tokens == before.tokens
    && after.zones == before.zones
    && after.records.Keys == before.records.Keys
    && (forall zoneId :: zoneId in before.records ==> |after.records[zoneId]| == |before.records[zoneId]|)
    && (forall zoneId, k :: zoneId in before.records && 0 <= k < |before.records[zoneId]|
          ==> SameExceptContent(before.records[zoneId][k], after.records[zoneId][k]))
  }

  /** Every record other than the one of id `id` in zone `zoneId` is as it was. */
  predicate ChangedAtMost(before: Store, after: Store, zoneId: string, id: string)
  {
    forall z, k :: z in before.records && z in after.records
                   && 0 <= k < |before.records[z]| && k < |after.records[z]|
                   && (z != zoneId || before.records[z][k].id != id)
                   ==> after.records[z][k] == before.records[z][k]
  }

  /** At most one record, picked by zone and id, differs between the stores. */
  ghost predicate AtMostOneRecordChanged(before: Store, after: Store)
  {
    exists zoneId, id :: ChangedAtMost(before, after, zoneId, id)
  }

  /** A store that did not change changed no record. */
  lemma AtMostOneRecordChangedReflexive(s: Store)
    ensures AtMostOneRecordChanged(s, s)
  {
    assert ChangedAtMost(s, s, "", "");
  }

  lemma OnlyContentChangedReflexive(s: Store)
    ensures OnlyContentChanged(s, s)
  {
    forall zoneId, k | zoneId in s.records && 0 <= k < |s.records[zoneId]|
      ensures SameExceptContent(s.records[zoneId][k], s.records[zoneId][k])
    {
    }
  }

  /** Changing contents neither adds nor removes a record of a name and type. */
  lemma HoldsKept(before: Store, after: Store, zoneId: string, name: string, rrType: string)
    requires OnlyContentChanged(before, after)
    ensures HoldsName(before, zoneId, name) <==> HoldsName(after, zoneId, name)
    ensures HoldsRecord(before, zoneId, name, rrType) <==> HoldsRecord(after, zoneId, name, rrType)
  {
    if zoneId in before.records {
      var b, a := before.records[zoneId], after.records[zoneId];
      assert forall k :: 0 <= k < |b| ==> SameExceptContent(b[k], a[k]);
      assert forall k :: 0 <= k < |b| ==> a[k].name == b[k].name && a[k].rrType == b[k].rrType;
    }
  }

  lemma OnlyContentChangedTransitive(s1: Store, s2: Store, s3: Store)
    requires OnlyContentChanged(s1, s2) && OnlyContentChanged(s2, s3)
    ensures OnlyContentChanged(s1, s3)
  {
    forall zoneId, k | zoneId in s1.records && 0 <= k < |s1.records[zoneId]|
      ensures SameExceptContent(s1.records[zoneId][k], s3.records[zoneId][k])
    {
      assert SameExceptContent(s2.records[zoneId][k], s3.records[zoneId][k]);
    }
  }

  /** Writing back a record that the store holds, with only its content
      replaced, changes that record's content and nothing else. */
  lemma PutChangesOnlyContent(api: Api, token: string, record: DnsRecord, value: string)
    requires WellFormed(api.store)
    requires record.zoneId in api.store.records && record in api.store.records[record.zoneId]
    ensures var f := UpdateRecordCall(api, token, record.zoneId, record.id, record.(content := value));
      && WellFormed(f.api.store)
      && OnlyContentChanged(api.store, f.api.store)
      && ChangedAtMost(api.store, f.api.store, record.zoneId, record.id)
      && (f.body ==> record.(content := value) in f.api.store.records[record.zoneId])
  {
    var f := UpdateRecordCall(api, token, record.zoneId, record.id, record.(content := value));
    if f.body {
      var before := api.store.records[record.zoneId];
      var after := f.api.store.records[record.zoneId];
      var j :| 0 <= j < |before| && before[j] == record;
      forall k | 0 <= k < |before|
        ensures SameExceptContent(before[k], after[k])
        ensures after[k].id == before[k].id && after[k].zoneId == before[k].zoneId
      {
        if before[k].id == record.id {
          assert k == j;
        }
      }
      assert after[j] == record.(content := value);
      forall z, k | z in api.store.records && z in f.api.store.records
                    && 0 <= k < |api.store.records[z]| && k < |f.api.store.records[z]|
                    && (z != record.zoneId || api.store.records[z][k].id != record.id)
        ensures f.api.store.records[z][k] == api.store.records[z][k]
      {
      }
    }
  }

  /** Writing the same content twice leaves the store as writing it once. */
  lemma PutIdempotent(api: Api, token: string, record: DnsRecord, value: string)
    requires WellFormed(api.store)
    requires record.zoneId in api.store.records && record in api.store.records[record.zoneId]
    ensures var once := UpdateRecordCall(api, token, record.zoneId, record.id, record.(content := value));
      var twice := UpdateRecordCall(once.api, token, record.zoneId, record.id, record.(content := value));
      twice.body == once.body && twice.api.store == once.api.store
  {
    var updated := record.(content := value);
    var once := UpdateRecordCall(api, token, record.zoneId, record.id, updated);
    PutChangesOnlyContent(api, token, record, value);
    if once.body {
      var rs := once.api.store.records[record.zoneId];
      assert HasRecordId(rs, record.id) by {
        var j :| 0 <= j < |rs| && rs[j] == updated;
      }
      var rs' := ReplaceRecord(rs, record.id, updated);
      assert rs' == rs;
      assert once.api.store.records[record.zoneId := rs'] == once.api.store.records;
    }
  }

  /** The names the zone lookups in a log ask for, in order. */
  function ZoneLookups(calls: seq<Call>): seq<string>
  {
    if |calls| == 0 then []
    else (if calls[0].ListZones? then [calls[0].name] else []) + ZoneLookups(calls[1..])
  }

  lemma ZoneLookupsAppend(a: seq<Call>, b: seq<Call>)
    ensures ZoneLookups(a + b) == ZoneLookups(a) + ZoneLookups(b)
  {
    if |a| > 0 {
      assert (a + b)[1..] == a[1..] + b;
      ZoneLookupsAppend(a[1..], b);
    } else {
      assert a + b == b;
    }
  }

  /** A call that is not a zone lookup adds no lookup. */
  lemma ZoneLookupsSnoc(a: seq<Call>, c: Call)
    ensures ZoneLookups(a + [c]) == ZoneLookups(a) + (if c.ListZones? then [c.name] else [])
  {
    ZoneLookupsAppend(a, [c]);
    assert [c][1..] == [];
  }

  /** The records the PUT requests of a log send, in order. */
  function Writes(calls: seq<Call>): seq<DnsRecord>
  {
    if |calls| == 0 then []
    else (if calls[0].PutRecord? then [calls[0].record] else []) + Writes(calls[1..])
  }

  lemma WritesAppend(a: seq<Call>, b: seq<Call>)
    ensures Writes(a + b) == Writes(a) + Writes(b)
  {
    if |a| > 0 {
      assert (a + b)[1..] == a[1..] + b;
      WritesAppend(a[1..], b);
    } else {
      assert a + b == b;
    }
  }

  /** A call that is not a PUT adds no write. */
  lemma WritesSnoc(a: seq<Call>, c: Call)
    ensures Writes(a + [c]) == Writes(a) + (if c.PutRecord? then [c.record] else [])
  {
    WritesAppend(a, [c]);
    assert [c][1..] == [];
  }

  /** Every call from position `from` of the log on carries the token. */
  predicate TokenFrom(log: seq<Call>, from: nat, token: string)
  {
    forall k :: from <= k < |log| ==> log[k].token == token
  }

  /** Token runs compose: a log extended by calls that carry the token. */
  lemma TokenFromExtend(a: seq<Call>, b: seq<Call>, from: nat, token: string)
    requires TokenFrom(a, from, token) && a <= b && TokenFrom(b, |a|, token)
    ensures TokenFrom(b, from, token)
  {
    forall k | from <= k < |b|
      ensures b[k].token == token
    {
      if k < |a| {
        assert b[k] == a[k];
      }
    }
  }

  predicate NoDuplicates(names: seq<string>)
  {
    forall j, k :: 0 <= j < k < |names| ==> names[j] != names[k]
  }

  /** A prefix of a list without duplicates has none either. */
  lemma NoDuplicatesPrefix(prefix: seq<string>, names: seq<string>)
    requires prefix <= names && NoDuplicates(names)
    ensures NoDuplicates(prefix)
  {
    forall j, k | 0 <= j < k < |prefix|
      ensures prefix[j] != prefix[k]
    {
      assert prefix[j] == names[j] && prefix[k] == names[k];
    }
  }
}

=== FILE: http.dfy ===
/** The request and response shapes the worker sees, the exceptions it
    throws, and the status rule `err.status || 500` shared by all versions. */
module Http {
  import opened Options

  /** One incoming request, already taken apart by the runtime's `URL`
      parser: URL parsing itself is not modelled, so `protocol`, `pathname`
      and `query` are given next to the raw `url` text. */
  datatype Request = Request(
    url: string,                    // `request.url`, as text
    protocol: string,               // `new URL(request.url).protocol`, e.g. "https:"
    pathname: string,               // `new URL(request.url).pathname`
    query: seq<(string, string)>,   // `searchParams`, name/value pairs in order
    forwardedProto: Option<string>, // header `x-forwarded-proto`
    authorization: Option<string>,  // header `Authorization`
    connectingIp: Option<string>)   // header `Cf-Connecting-Ip`

  /** A response body: none (`null`), a known text, or text the JavaScript
      engine writes itself (a stack trace or a runtime error message). */
  datatype Body = NoBody | Text(text: string) | EngineText

  datatype Response = Response(status: int, body: Body)

  /** The runtime failures the engine raises on the worker's behalf. */
  datatype Fault =
    | DecodeFailed     // `atob` rejects the Authorization data (DOMException)
    | NoResultList     // `body.result[0]` on a reply whose `result` is null
    | UndefinedZone    // `zone.id` on an `undefined` zone
    | UndefinedRecord  // `record.content = value` on an `undefined` record

  /** Everything `handleRequest` can throw. */
  datatype Exception =
    | BadRequest(reason: string)    // BadRequestException, status 400 (all versions)
    | Unauthorized(reason: string)  // UnauthorizedException, status 401 (index.js; never thrown)
    | CloudflareApi(reason: string) // CloudflareApiException, status 500 (src/ versions)
    | Engine(fault: Fault)          // a TypeError or DOMException: it carries no status

  datatype Result<T> = Ok(value: T) | Err(error: Exception)

  /** The exception's `status` property, when it has one. */
  function StatusProperty(e: Exception): Option<int>
  {
    match e
    case BadRequest(_) => Some(400)
    case Unauthorized(_) => Some(401)
    case CloudflareApi(_) => Some(500)
    case Engine(_) => None
  }

  /** `err.status || 500`: a missing or zero status becomes 500. */
  function ErrorStatus(e: Exception): (status: int)
    ensures status == 400 <==> e.BadRequest?
    ensures status == 401 <==> e.Unauthorized?
    ensures status == 500 <==> e.CloudflareApi? || e.Engine?
  {
    var s := StatusProperty(e);
    if s.Some? && s.value != 0 then s.value else 500
  }

  /** The HTTPS gate: the URL scheme must be `https:` and the proxy's
      `x-forwarded-proto` header must say `https`. */
  predicate HttpsViolated(req: Request)
  {
    req.protocol != "https:" || req.forwardedProto != Some("https")
  }

  /** Whether a request of `src/index.js` or `index.js` gets past the
      routing: HTTPS, one of the two update paths, and an Authorization
      header. */
  predicate NicUpdateAdmitted(req: Request)
  {
    && !HttpsViolated(req)
    && (req.pathname == "/nic/update" || req.pathname == "/update")
    && req.authorization.Some?
  }

  const UseHttps := "Please use a HTTPS connection."
  const ProvideCredentials := "Please provide valid credentials."

  /** The answer to `/favicon.ico` and `/robots.txt`. */
  const NoContent := Response(204, NoBody)
  const NotFound := Response(404, Text("Not Found."))
  /** The success answer of every version. */
  const Good := Response(200, Text("good"))
}

=== FILE: js_text.dfy ===
/** The JavaScript string operations the worker relies on, over `seq<char>`. */
module JsText {

  /** `s.indexOf(c)` for a single character: the first position of `c`, or -1. */
  function IndexOf(s: string, c: char): (i: int)
    ensures -1 <= i < |s|
    ensures i == -1 <==> c !in s
    ensures 0 <= i ==> s[i] == c && forall k :: 0 <= k < i ==> s[k] != c
  {
    IndexFrom(s, c, 0)
  }

  /** The first position at or after `n` that holds `c`, or -1. */
  function IndexFrom(s: string, c: char, n: nat): (i: int)
    requires n <= |s|
    ensures -1 <= i < |s|
    ensures i == -1 <==> forall k :: n <= k < |s| ==> s[k] != c
    ensures 0 <= i ==> n <= i && s[i] == c && forall k :: n <= k < i ==> s[k] != c
    decreases |s| - n
  {
    if n == |s| then -1
    else if s[n] == c then n
    else IndexFrom(s, c, n + 1)
  }

  /** `parts.join(sep)`: the parts with one `sep` between neighbours. */
  function Join(parts: seq<string>, sep: char): string
  {
    if |parts| == 0 then ""
    else if |parts| == 1 then parts[0]
    else parts[0] + [sep] + Join(parts[1..], sep)
  }

  /** `s.split(sep)` for a single-character separator: the text between
      consecutive occurrences of `sep`. Never empty: `"".split(",")` is `[""]`. */
  function Split(s: string, sep: char): (parts: seq<string>)
    ensures |parts| >= 1
    decreases |s|
  {
    var i := IndexOf(s, sep);
    if i == -1 then [s]
    else
      var rest := Split(s[i + 1..], sep);
      assert ([s[..i]] + rest)[1..] == rest;
      [s[..i]] + rest
  }

  /** No piece of a split holds the separator. */
  lemma {:induction false} SplitPiecesFree(s: string, sep: char)
    ensures forall k :: 0 <= k < |Split(s, sep)| ==> sep !in Split(s, sep)[k]
    decreases |s|
  {
    var i := IndexOf(s, sep);
    if i != -1 {
      SplitPiecesFree(s[i + 1..], sep);
      var rest := Split(s[i + 1..], sep);
      var parts := Split(s, sep);
      assert parts == [s[..i]] + rest;
      forall k | 0 <= k < |parts|
        ensures sep !in parts[k]
      {
        if k == 0 {
          assert sep !in s[..i];
        } else {
          assert parts[k] == rest[k - 1];
        }
      }
    }
  }

  /** Joining the pieces of a split with the separator gives the text back. */
  lemma {:induction false} JoinSplit(s: string, sep: char)
    ensures Join(Split(s, sep), sep) == s
    decreases |s|, 1
  {
    if sep in s {
      JoinSplitAt(s, sep);
    } else {
      SplitWithout(s, sep);
    }
  }

  lemma {:induction false} JoinSplitAt(s: string, sep: char)
    requires sep in s
    ensures Join(Split(s, sep), sep) == s
    decreases |s|, 0
  {
    var i := IndexOf(s, sep);
    var head, tail := s[..i], s[i + 1..];
    calc {
      Join(Split(s, sep), sep);
    == { assert Split(s, sep) == [head] + Split(tail, sep); }
      Join([head] + Split(tail, sep), sep);
    == { JoinCons(head, Split(tail, sep), sep); }
      head + [sep] + Join(Split(tail, sep), sep);
    == { JoinSplit(tail, sep); }
      head + [sep] + tail;
    == { assert s[i] == sep; SplitAround(s, i); }
      s;
    }
  }

  /** A text is the part before position `i`, the character there, and the part after it. */
  lemma SplitAround(s: string, i: nat)
    requires i < |s|
    ensures s[..i] + [s[i]] + s[i + 1..] == s
  {
  }

  lemma JoinCons(head: string, rest: seq<string>, sep: char)
    requires |rest| >= 1
    ensures Join([head] + rest, sep) == head + [sep] + Join(rest, sep)
  {
    assert ([head] + rest)[1..] == rest;
  }

  /** The first separator after a separator-free word is the one that ends it. */
  lemma {:induction false} IndexOfAfterWord(word: string, sep: char, rest: string)
    requires sep !in word
    ensures IndexOf(word + [sep] + rest, sep) == |word|
    decreases |word|
  {
    var s := word + [sep] + rest;
    if |word| > 0 {
      assert s[0] == word[0];
      assert s[1..] == word[1..] + [sep] + rest;
      IndexOfAfterWord(word[1..], sep, rest);
    }
  }

  /** Splitting text that starts with a separator-free word and a separator
      yields that word followed by the split of the remainder. */
  lemma SplitAfterWord(word: string, sep: char, rest: string)
    requires sep !in word
    ensures Split(word + [sep] + rest, sep) == [word] + Split(rest, sep)
  {
    var s := word + [sep] + rest;
    IndexOfAfterWord(word, sep, rest);
    assert s[..|word|] == word;
    assert s[|word| + 1..] == rest;
  }

  /** Split undoes Join whenever no part holds the separator. */
  lemma {:induction false} SplitJoin(parts: seq<string>, sep: char)
    requires |parts| >= 1
    requires forall k :: 0 <= k < |parts| ==> sep !in parts[k]
    ensures Split(Join(parts, sep), sep) == parts
    decreases |parts|
  {
    if |parts| == 1 {
      assert IndexOf(parts[0], sep) == -1;
    } else {
      SplitJoin(parts[1..], sep);
      SplitAfterWord(parts[0], sep, Join(parts[1..], sep));
      assert [parts[0]] + parts[1..] == parts;
    }
  }

  /** Text without the separator splits into itself alone. */
  lemma SplitWithout(s: string, sep: char)
    requires sep !in s
    ensures Split(s, sep) == [s]
  {
    assert IndexOf(s, sep) == -1;
  }

  /** A joined list ends with its last two parts and the separator between them. */
  lemma {:induction false} JoinEndsWithLastTwo(parts: seq<string>, sep: char)
    requires |parts| >= 2
    ensures EndsWith(Join(parts, sep), parts[|parts| - 2] + [sep] + parts[|parts| - 1])
    decreases |parts|
  {
    var tail := parts[|parts| - 2] + [sep] + parts[|parts| - 1];
    if |parts| == 2 {
      assert Join(parts, sep) == tail;
    } else {
      JoinEndsWithLastTwo(parts[1..], sep);
      assert parts[1..][|parts| - 3] == parts[|parts| - 2];
      EndsWithPrepend(parts[0] + [sep], Join(parts[1..], sep), tail);
    }
  }

  /** `s.endsWith(suffix)`. */
  predicate EndsWith(s: string, suffix: string)
  {
    |suffix| <= |s| && s[|s| - |suffix|..] == suffix
  }

  /** A suffix of a suffix is a suffix. */
  lemma EndsWithTransitive(s: string, middle: string, suffix: string)
    requires EndsWith(s, middle)
    ensures EndsWith(middle, suffix) ==> EndsWith(s, suffix)
  {
    if EndsWith(middle, suffix) {
      assert s[|s| - |suffix|..] == s[|s| - |middle|..][|middle| - |suffix|..];
    }
  }

  /** A suffix of a text is a suffix of anything the text is appended to. */
  lemma EndsWithPrepend(front: string, s: string, suffix: string)
    requires EndsWith(s, suffix)
    ensures EndsWith(front + s, suffix)
  {
    assert (front + s)[|front + s| - |suffix|..] == s[|s| - |suffix|..];
  }

  /** `s.includes(sub)`: `sub` occurs somewhere in `s`. */
  predicate Includes(s: string, sub: string)
    decreases |s|
  {
    sub <= s || (|s| > 0 && Includes(s[1..], sub))
  }

  /** The characters `String.prototype.trim` removes: ECMAScript WhiteSpace
      (tab, vertical tab, form feed, space, no-break space, byte-order mark
      and the other Unicode space separators) and LineTerminator. */
  predicate IsTrimmable(c: char)
  {
    var n := c as int;
    || n == 0x09 || n == 0x0B || n == 0x0C || n == 0x20 || n == 0xA0 || n == 0xFEFF
    || n == 0x1680 || (0x2000 <= n <= 0x200A) || n == 0x202F || n == 0x205F || n == 0x3000
    || IsLineTerminator(c)
  }

  /** ECMAScript LineTerminator: the characters a regular expression `.` does not match. */
  predicate IsLineTerminator(c: char)
  {
    var n := c as int;
    n == 0x0A || n == 0x0D || n == 0x2028 || n == 0x2029
  }

  /** No line terminator anywhere in `s`: a single line of text. */
  predicate SingleLine(s: string)
    decreases |s|
  {
    |s| == 0 || (!IsLineTerminator(s[0]) && SingleLine(s[1..]))
  }

  lemma {:induction false} SingleLineAt(s: string, k: nat)
    requires SingleLine(s) && k < |s|
    ensures !IsLineTerminator(s[k])
    decreases |s|
  {
    if k > 0 {
      SingleLineAt(s[1..], k - 1);
    }
  }

  lemma {:induction false} SingleLinePrefix(s: string, n: nat)
    requires SingleLine(s) && n <= |s|
    ensures SingleLine(s[..n])
    decreases |s|
  {
    if n > 0 {
      SingleLinePrefix(s[1..], n - 1);
      assert s[..n][1..] == s[1..][..n - 1];
    }
  }

  lemma {:induction false} SingleLineSuffix(s: string, i: nat)
    requires SingleLine(s) && i <= |s|
    ensures SingleLine(s[i..])
    decreases |s|
  {
    if i > 0 {
      SingleLineSuffix(s[1..], i - 1);
      assert s[1..][i - 1..] == s[i..];
    }
  }

  /** `s.trimStart()`. */
  function TrimStart(s: string): (t: string)
    ensures |t| <= |s| && t == s[|s| - |t|..]
    ensures forall k :: 0 <= k < |s| - |t| ==> IsTrimmable(s[k])
    ensures t == [] || !IsTrimmable(t[0])
  {
    if |s| > 0 && IsTrimmable(s[0]) then TrimStart(s[1..]) else s
  }

  /** `s.trimEnd()`. */
  function TrimEnd(s: string): (t: string)
    ensures |t| <= |s| && t == s[..|t|]
    ensures forall k :: |t| <= k < |s| ==> IsTrimmable(s[k])
    ensures t == [] || !IsTrimmable(t[|t| - 1])
  {
    if |s| > 0 && IsTrimmable(s[|s| - 1]) then TrimEnd(s[..|s| - 1]) else s
  }

  /** `s.trim()`. */
  function Trim(s: string): string
  {
    TrimEnd(TrimStart(s))
  }

  /** Trim strips exactly the surrounding white space: padding a text whose
      ends are not white space gives that text back. */
  lemma {:induction false} TrimPadded(lead: string, text: string, trail: string)
    requires forall k :: 0 <= k < |lead| ==> IsTrimmable(lead[k])
    requires forall k :: 0 <= k < |trail| ==> IsTrimmable(trail[k])
    requires text == [] || (!IsTrimmable(text[0]) && !IsTrimmable(text[|text| - 1]))
    ensures Trim(lead + text + trail) == text
  {
    if text == [] {
      assert lead + text + trail == lead + trail + [];
      TrimStartPadded(lead + trail, []);
    } else {
      assert lead + text + trail == lead + (text + trail);
      TrimStartPadded(lead, text + trail);
      TrimEndPadded(text, trail);
    }
  }

  lemma {:induction false} TrimStartPadded(lead: string, rest: string)
    requires forall k :: 0 <= k < |lead| ==> IsTrimmable(lead[k])
    requires rest == [] || !IsTrimmable(rest[0])
    ensures TrimStart(lead + rest) == rest
    decreases |lead|
  {
    if |lead| > 0 {
      assert (lead + rest)[1..] == lead[1..] + rest;
      TrimStartPadded(lead[1..], rest);
    } else {
      assert lead + rest == rest;
    }
  }

  lemma {:induction false} TrimEndPadded(text: string, trail: string)
    requires forall k :: 0 <= k < |trail| ==> IsTrimmable(trail[k])
    requires text == [] || !IsTrimmable(text[|text| - 1])
    ensures TrimEnd(text + trail) == text
    decreases |trail|
  {
    if |trail| > 0 {
      var s := text + trail;
      assert s[..|s| - 1] == text + trail[..|trail| - 1];
      TrimEndPadded(text, trail[..|trail| - 1]);
    } else {
      assert text + trail == text;
    }
  }
}

=== FILE: js_worker.dfy ===
/** The earlier worker, src/index.js: the paths `/update` and `/nic/update`
    only, Basic auth required, the `hostname` and `ip`/`myip` parameters
    checked before any call, one zone found by the username, and for each
    hostname its first record of any type. */
module JsWorker {
  import opened Options
  import opened JsText
  import opened Http
  import opened Params
  import opened BasicAuth
  import opened Cloudflare

  // ---------------------------------------------------------------- client

  /** `Cloudflare.findRecord`: the first record of the name, whatever its
      type; fails when the reply is unsuccessful or lists nothing. */
  function FindRecord(token: string, zone: Zone, name: string, api: Api): (r: Step<DnsRecord>)
    ensures r.api == api.(log := api.log + [ListRecords(token, zone.id, name)])
    ensures r.result.Err? <==> token !in api.store.tokens || zone.id !in api.store.records
                               || Named(api.store.records[zone.id], name) == []
    ensures r.result.Err? ==> r.result.error == CloudflareApi("Failed to find dns record '" + name + "'")
    ensures r.result.Ok? ==> r.result.value == Named(api.store.records[zone.id], name)[0]
                             && r.result.value in api.store.records[zone.id]
                             && r.result.value.name == name
  {
    var f := QueryRecords(api, token, zone.id, name);
    match f.body
    case Unsuccessful => Step(Err(CloudflareApi("Failed to find dns record '" + name + "'")), f.api)
    case Listed(records) =>
      if |records| == 0 then Step(Err(CloudflareApi("Failed to find dns record '" + name + "'")), f.api)
      else Step(Ok(records[0]), f.api)
  }

  /** `Cloudflare.updateRecord`: sets `content` and PUTs the whole record back. */
  function UpdateRecord(token: string, record: DnsRecord, value: string, api: Api): (r: Step<()>)
    ensures var sent := record.(content := value);
      && r.api.log == api.log + [PutRecord(token, sent.zoneId, sent.id, sent)]
      && (r.result.Ok? <==> PutAccepted(api.store, token, sent.zoneId, sent.id))
      && (r.result.Err? ==> r.result.error == CloudflareApi("Failed to update dns record")
                            && r.api.store == api.store)
    ensures r.api.store.tokens == api.store.tokens && r.api.store.zones == api.store.zones
  {
    var sent := record.(content := value);
    var f := UpdateRecordCall(api, token, sent.zoneId, sent.id, sent);
    if f.body then Step(Ok(()), f.api)
    else Step(Err(CloudflareApi("Failed to update dns record")), f.api)
  }

  // ---------------------------------------------------------------- updates

  /** One hostname of `informAPI`'s loop: its record in the zone, then the write. */
  function Visit(hostname: string, ip: string, token: string, zone: Zone, api: Api): (r: Step<()>)
    ensures api.log <= r.api.log
    ensures r.api.store.tokens == api.store.tokens && r.api.store.zones == api.store.zones
    ensures r.result.Err? ==> r.result.error.CloudflareApi?
  {
    var found := FindRecord(token, zone, hostname, api);
    if found.result.Err? then Step(Err(found.result.error), found.api)
    else UpdateRecord(token, found.result.value, ip, found.api)
  }

  /** The loop of `informAPI` from a given hostname on; the first failure
      ends it. */
  function Loop(hostnames: seq<string>, ip: string, token: string, zone: Zone, api: Api): (r: Step<()>)
    ensures api.log <= r.api.log
    ensures r.api.store.tokens == api.store.tokens && r.api.store.zones == api.store.zones
    ensures r.result.Err? ==> r.result.error.CloudflareApi?
    decreases |hostnames|
  {
    if |hostnames| == 0 then Step(Ok(()), api)
    else
      var visit := Visit(hostnames[0], ip, token, zone, api);
      if visit.result.Err? then visit
      else Loop(hostnames[1..], ip, token, zone, visit.api)
  }

  /** `informAPI`: the zone named by the username, found once, then every
      hostname in turn. */
  function InformApi(hostnames: seq<string>, ip: string, name: string, token: string, api: Api): (r: Step<()>)
    ensures api.log <= r.api.log
    ensures r.api.store.tokens == api.store.tokens && r.api.store.zones == api.store.zones
    ensures r.result.Err? ==> r.result.error.CloudflareApi?
  {
    var z := FindZone(token, name, api);
    if z.result.Err? then Step(Err(z.result.error), z.api)
    else Loop(hostnames, ip, token, z.result.value, z.api)
  }

  /** The (name, content) pair of each record written. */
  function Written(records: seq<DnsRecord>): (pairs: seq<(string, string)>)
    ensures |pairs| == |records|
    ensures forall k :: 0 <= k < |records| ==> pairs[k] == (records[k].name, records[k].content)
  {
    seq(|records|, k requires 0 <= k < |records| => (records[k].name, records[k].content))
  }

  lemma WrittenAppend(a: seq<DnsRecord>, b: seq<DnsRecord>)
    ensures Written(a + b) == Written(a) + Written(b)
  {
  }

  /** Each hostname paired with the one address. */
  function Pairs(hostnames: seq<string>, ip: string): seq<(string, string)>
  {
    seq(|hostnames|, k requires 0 <= k < |hostnames| => (hostnames[k], ip))
  }

  lemma PairsCons(hostnames: seq<string>, ip: string)
    requires |hostnames| > 0
    ensures Pairs(hostnames, ip) == [(hostnames[0], ip)] + Pairs(hostnames[1..], ip)
  {
  }

  /** A visit that succeeds writes the hostname's record with the address. */
  lemma VisitWritten(hostname: string, ip: string, token: string, zone: Zone, api: Api)
    ensures var r := Visit(hostname, ip, token, zone, api);
      r.result.Ok? ==> Written(Writes(r.api.log)) == Written(Writes(api.log)) + [(hostname, ip)]
  {
    var found := FindRecord(token, zone, hostname, api);
    if found.result.Ok? {
      WritesSnoc(api.log, ListRecords(token, zone.id, hostname));
      var sent := found.result.value.(content := ip);
      WritesSnoc(found.api.log, PutRecord(token, sent.zoneId, sent.id, sent));
      WrittenAppend(Writes(found.api.log), [sent]);
    }
  }

  /** A loop that succeeds writes every hostname once, in order, with the address. */
  lemma {:induction false} LoopWritten(hostnames: seq<string>, ip: string, token: string, zone: Zone, api: Api)
    ensures var r := Loop(hostnames, ip, token, zone, api);
      r.result.Ok? ==> Written(Writes(r.api.log)) == Written(Writes(api.log)) + Pairs(hostnames, ip)
    decreases |hostnames|
  {
    if |hostnames| > 0 {
      var visit := Visit(hostnames[0], ip, token, zone, api);
      if visit.result.Ok? {
        VisitWritten(hostnames[0], ip, token, zone, api);
        LoopWritten(hostnames[1..], ip, token, zone, visit.api);
        PairsCons(hostnames, ip);
      }
    }
  }

  /** The loop never looks a zone up. */
  lemma {:induction false} LoopLookups(hostnames: seq<string>, ip: string, token: string, zone: Zone, api: Api)
    ensures ZoneLookups(Loop(hostnames, ip, token, zone, api).api.log) == ZoneLookups(api.log)
    decreases |hostnames|
  {
    if |hostnames| > 0 {
      var visit := Visit(hostnames[0], ip, token, zone, api);
      var found := FindRecord(token, zone, hostnames[0], api);
      ZoneLookupsSnoc(api.log, ListRecords(token, zone.id, hostnames[0]));
      if found.result.Ok? {
        var sent := found.result.value.(content := ip);
        ZoneLookupsSnoc(found.api.log, PutRecord(token, sent.zoneId, sent.id, sent));
      }
      assert ZoneLookups(visit.api.log) == ZoneLookups(api.log);
      if visit.result.Ok? {
        LoopLookups(hostnames[1..], ip, token, zone, visit.api);
      }
    }
  }

  /** `informAPI` looks exactly one zone up, the username's, however many
      hostnames there are and whatever the outcome. */
  lemma InformApiLookups(hostnames: seq<string>, ip: string, name: string, token: string, api: Api)
    ensures ZoneLookups(InformApi(hostnames, ip, name, token, api).api.log) == ZoneLookups(api.log) + [name]
  {
    var z := FindZone(token, name, api);
    ZoneLookupsSnoc(api.log, ListZones(token, name));
    if z.result.Ok? {
      LoopLookups(hostnames, ip, token, z.result.value, z.api);
    }
  }

  /** An `informAPI` that succeeds writes every hostname once, in order,
      with the address. */
  lemma InformApiWritten(hostnames: seq<string>, ip: string, name: string, token: string, api: Api)
    ensures var r := InformApi(hostnames, ip, name, token, api);
      r.result.Ok? ==> Written(Writes(r.api.log)) == Written(Writes(api.log)) + Pairs(hostnames, ip)
  {
    var z := FindZone(token, name, api);
    WritesSnoc(api.log, ListZones(token, name));
    if z.result.Ok? {
      LoopWritten(hostnames, ip, token, z.result.value, z.api);
    }
  }

  /** Every call of the loop carries the password as bearer token. */
  lemma {:induction false} LoopTokens(hostnames: seq<string>, ip: string, token: string, zone: Zone, api: Api)
    ensures TokenFrom(Loop(hostnames, ip, token, zone, api).api.log, |api.log|, token)
    decreases |hostnames|
  {
    if |hostnames| > 0 {
      var visit := Visit(hostnames[0], ip, token, zone, api);
      assert TokenFrom(visit.api.log, |api.log|, token);
      if visit.result.Ok? {
        var rest := Loop(hostnames[1..], ip, token, zone, visit.api);
        LoopTokens(hostnames[1..], ip, token, zone, visit.api);
        forall k | |api.log| <= k < |visit.api.log|
          ensures rest.api.log[k] == visit.api.log[k]
        {
        }
      }
    }
  }

  lemma InformApiTokens(hostnames: seq<string>, ip: string, name: string, token: string, api: Api)
    ensures TokenFrom(InformApi(hostnames, ip, name, token, api).api.log, |api.log|, token)
  {
    var z := FindZone(token, name, api);
    if z.result.Ok? {
      var rest := Loop(hostnames, ip, token, z.result.value, z.api);
      LoopTokens(hostnames, ip, token, z.result.value, z.api);
      assert rest.api.log[|api.log|] == z.api.log[|api.log|];
    }
  }

  /** A visit changes at most the content of the record it writes, and
      keeps the store well formed. */
  lemma VisitChangesOnlyContent(hostname: string, ip: string, token: string, zone: Zone, api: Api)
    requires WellFormed(api.store)
    ensures var r := Visit(hostname, ip, token, zone, api);
      && WellFormed(r.api.store) && OnlyContentChanged(api.store, r.api.store)
      && AtMostOneRecordChanged(api.store, r.api.store)
  {
    var found := FindRecord(token, zone, hostname, api);
    if found.result.Ok? {
      var record := found.result.value;
      assert record.zoneId == zone.id;
      PutChangesOnlyContent(found.api, token, record, ip);
      var r := Visit(hostname, ip, token, zone, api);
      assert ChangedAtMost(api.store, r.api.store, record.zoneId, record.id);
    } else {
      OnlyContentChangedReflexive(api.store);
      AtMostOneRecordChangedReflexive(api.store);
    }
  }

  /** The loop changes at most record contents and keeps the store well formed. */
  lemma {:induction false} LoopChangesOnlyContent(hostnames: seq<string>, ip: string, token: string, zone: Zone, api: Api)
    requires WellFormed(api.store)
    ensures var r := Loop(hostnames, ip, token, zone, api);
      WellFormed(r.api.store) && OnlyContentChanged(api.store, r.api.store)
    decreases |hostnames|
  {
    var r := Loop(hostnames, ip, token, zone, api);
    if |hostnames| == 0 {
      OnlyContentChangedReflexive(api.store);
    } else {
      var visit := Visit(hostnames[0], ip, token, zone, api);
      VisitChangesOnlyContent(hostnames[0], ip, token, zone, api);
      if visit.result.Ok? {
        LoopChangesOnlyContent(hostnames[1..], ip, token, zone, visit.api);
        OnlyContentChangedTransitive(api.store, visit.api.store, r.api.store);
      }
    }
  }

  /** Whether one hostname of the loop can be written: the token is
      accepted and the zone holds a record of that name, of any type. */
  predicate Writable(store: Store, token: string, zoneId: string, hostname: string)
  {
    token in store.tokens && HoldsName(store, zoneId, hostname)
  }

  /** A visit succeeds exactly when its hostname can be written. */
  lemma VisitSucceeds(hostname: string, ip: string, token: string, zone: Zone, api: Api)
    requires WellFormed(api.store)
    ensures Visit(hostname, ip, token, zone, api).result.Ok? <==> Writable(api.store, token, zone.id, hostname)
  {
    var found := FindRecord(token, zone, hostname, api);
    if zone.id in api.store.records {
      NamedHolds(api.store, zone.id, hostname);
    }
    if found.result.Ok? {
      var records := api.store.records[zone.id];
      var record := found.result.value;
      var j :| 0 <= j < |records| && records[j] == record;
      assert record.zoneId == zone.id;
      assert HasRecordId(records, record.id);
    }
  }

  /** Every hostname of a list can be written exactly when the first can
      and, after a change of contents, every later one can. */
  lemma AllWritableCons(before: Store, after: Store, token: string, zoneId: string, hostnames: seq<string>)
    requires |hostnames| > 0
    requires OnlyContentChanged(before, after)
    ensures (forall k :: 0 <= k < |hostnames| ==> Writable(before, token, zoneId, hostnames[k]))
            <==> && Writable(before, token, zoneId, hostnames[0])
                 && forall k :: 0 <= k < |hostnames| - 1 ==> Writable(after, token, zoneId, hostnames[1..][k])
  {
    forall k | 1 <= k < |hostnames|
      ensures Writable(before, token, zoneId, hostnames[k]) <==> Writable(after, token, zoneId, hostnames[1..][k - 1])
    {
      assert hostnames[1..][k - 1] == hostnames[k];
      HoldsKept(before, after, zoneId, hostnames[k], "");
    }
  }

  /** The loop succeeds exactly when every hostname can be written in the
      store it starts from: earlier writes change contents only. */
  lemma {:induction false} LoopSucceeds(hostnames: seq<string>, ip: string, token: string, zone: Zone, api: Api)
    requires WellFormed(api.store)
    ensures Loop(hostnames, ip, token, zone, api).result.Ok?
            <==> forall k :: 0 <= k < |hostnames| ==> Writable(api.store, token, zone.id, hostnames[k])
    decreases |hostnames|
  {
    if |hostnames| > 0 {
      var visit := Visit(hostnames[0], ip, token, zone, api);
      VisitSucceeds(hostnames[0], ip, token, zone, api);
      if visit.result.Ok? {
        VisitChangesOnlyContent(hostnames[0], ip, token, zone, api);
        LoopSucceeds(hostnames[1..], ip, token, zone, visit.api);
        AllWritableCons(api.store, visit.api.store, token, zone.id, hostnames);
      }
    }
  }

  /** `informAPI` succeeds exactly when the token is accepted, the
      username names a zone, and that zone holds a record of every
      hostname. */
  lemma InformApiSucceeds(hostnames: seq<string>, ip: string, name: string, token: string, api: Api)
    requires WellFormed(api.store)
    ensures InformApi(hostnames, ip, name, token, api).result.Ok?
            <==> && token in api.store.tokens && name in api.store.zones
                 && forall k :: 0 <= k < |hostnames| ==> Writable(api.store, token, api.store.zones[name].id, hostnames[k])
  {
    var z := FindZone(token, name, api);
    if z.result.Ok? {
      LoopSucceeds(hostnames, ip, token, z.result.value, z.api);
    }
  }

  // ---------------------------------------------------------------- requests

  /** `informAPI` changes at most record contents and keeps the store well formed. */
  lemma InformApiChangesOnlyContent(hostnames: seq<string>, ip: string, name: string, token: string, api: Api)
    requires WellFormed(api.store)
    ensures var r := InformApi(hostnames, ip, name, token, api);
      WellFormed(r.api.store) && OnlyContentChanged(api.store, r.api.store)
  {
    var z := FindZone(token, name, api);
    if z.result.Ok? {
      LoopChangesOnlyContent(hostnames, ip, token, z.result.value, z.api);
    } else {
      OnlyContentChangedReflexive(api.store);
    }
  }

  /** `handleRequest`: the HTTPS gate, the routing, Basic auth, the
      parameter checks, then `informAPI` with the username as zone name
      and the password as token. */
  function HandleRequest(req: Request, decode: string -> Option<string>, api: Api): (r: Step<Response>)
    ensures HttpsViolated(req) ==> r == Step(Err(BadRequest(UseHttps)), api)
    ensures !HttpsViolated(req) && (req.pathname == "/favicon.ico" || req.pathname == "/robots.txt")
            ==> r == Step(Ok(NoContent), api)
    ensures !HttpsViolated(req) && req.pathname != "/favicon.ico" && req.pathname != "/robots.txt"
            && req.pathname != "/nic/update" && req.pathname != "/update"
            ==> r == Step(Ok(NotFound), api)
    ensures !HttpsViolated(req) && (req.pathname == "/nic/update" || req.pathname == "/update")
            && req.authorization.None?
            ==> r == Step(Err(BadRequest(ProvideCredentials)), api)
    ensures NicUpdateAdmitted(req) && ParseAuthorization(req.authorization.value, decode).Ok?
            && VerifyParameters(req.query).Some?
            ==> r == Step(Err(VerifyParameters(req.query).value), api)
    ensures r.result.Ok? ==> r.result.value in {NoContent, NotFound, Good}
    ensures r.result == Ok(Good) ==> NicUpdateAdmitted(req) && VerifyParameters(req.query).None?
    ensures NicUpdateAdmitted(req) && ParseAuthorization(req.authorization.value, decode).Err?
            ==> r == Step(Err(ParseAuthorization(req.authorization.value, decode).error), api)
    ensures api.log <= r.api.log
    ensures r.api.store.tokens == api.store.tokens && r.api.store.zones == api.store.zones
  {
    if HttpsViolated(req) then Step(Err(BadRequest(UseHttps)), api)
    else if req.pathname == "/favicon.ico" || req.pathname == "/robots.txt" then Step(Ok(NoContent), api)
    else if req.pathname != "/nic/update" && req.pathname != "/update" then Step(Ok(NotFound), api)
    else if req.authorization.None? then Step(Err(BadRequest(ProvideCredentials)), api)
    else
      match ParseAuthorization(req.authorization.value, decode)
      case Err(e) => Step(Err(e), api)
      case Ok(credentials) =>
        match VerifyParameters(req.query)
        case Some(e) => Step(Err(e), api)
        case None =>
          var hostnames := Split(Get(req.query, "hostname").value, ',');
          var inform := InformApi(hostnames, LegacyAddress(req.query).value,
                                  credentials.username, credentials.password, api);
          if inform.result.Err? then Step(Err(inform.result.error), inform.api)
          else Step(Ok(Good), inform.api)
  }

  /** A request answered "good" looked up the username's zone once and
      wrote every listed hostname with the address, each call carrying
      the password. */
  lemma HandleRequestUpdates(req: Request, decode: string -> Option<string>, api: Api)
    ensures var r := HandleRequest(req, decode, api);
      r.result == Ok(Good) ==>
        && ParseAuthorization(req.authorization.value, decode).Ok?
        && var credentials := ParseAuthorization(req.authorization.value, decode).value;
           var hostnames := Split(Get(req.query, "hostname").value, ',');
           && ZoneLookups(r.api.log) == ZoneLookups(api.log) + [credentials.username]
           && Written(Writes(r.api.log)) == Written(Writes(api.log)) + Pairs(hostnames, LegacyAddress(req.query).value)
           && TokenFrom(r.api.log, |api.log|, credentials.password)
  {
    var r := HandleRequest(req, decode, api);
    if r.result == Ok(Good) {
      var credentials := ParseAuthorization(req.authorization.value, decode).value;
      var hostnames := Split(Get(req.query, "hostname").value, ',');
      var ip := LegacyAddress(req.query).value;
      assert r.api == InformApi(hostnames, ip, credentials.username, credentials.password, api).api;
      InformApiLookups(hostnames, ip, credentials.username, credentials.password, api);
      InformApiWritten(hostnames, ip, credentials.username, credentials.password, api);
      InformApiTokens(hostnames, ip, credentials.username, credentials.password, api);
    }
  }

  /** An admitted request with good credentials and valid parameters runs
      `informAPI` on the split hostname list, and its outcome is the
      answer: "good" exactly when it succeeds, else its error. */
  lemma HandleRequestRunsUpdate(req: Request, decode: string -> Option<string>, api: Api)
    requires NicUpdateAdmitted(req) && ParseAuthorization(req.authorization.value, decode).Ok?
    requires VerifyParameters(req.query).None?
    ensures Get(req.query, "hostname").Some? && LegacyAddress(req.query).Some?
    ensures var r := HandleRequest(req, decode, api);
      var credentials := ParseAuthorization(req.authorization.value, decode).value;
      var u := InformApi(Split(Get(req.query, "hostname").value, ','), LegacyAddress(req.query).value,
                         credentials.username, credentials.password, api);
      && r.api == u.api
      && (r.result == Ok(Good) <==> u.result.Ok?)
      && (u.result.Err? ==> r.result == Err(u.result.error))
  {
  }

  /** Such a request is answered "good" exactly when, in the store it
      starts from, the password is an accepted token, the username names a
      zone, and that zone holds a record of every listed hostname. */
  lemma HandleRequestGood(req: Request, decode: string -> Option<string>, api: Api)
    requires WellFormed(api.store)
    requires NicUpdateAdmitted(req) && ParseAuthorization(req.authorization.value, decode).Ok?
    requires VerifyParameters(req.query).None?
    ensures Get(req.query, "hostname").Some?
    ensures var credentials := ParseAuthorization(req.authorization.value, decode).value;
      var hostnames := Split(Get(req.query, "hostname").value, ',');
      HandleRequest(req, decode, api).result == Ok(Good)
      <==> && credentials.password in api.store.tokens && credentials.username in api.store.zones
           && forall k :: 0 <= k < |hostnames| ==>
                Writable(api.store, credentials.password, api.store.zones[credentials.username].id, hostnames[k])
  {
    var credentials := ParseAuthorization(req.authorization.value, decode).value;
    HandleRequestRunsUpdate(req, decode, api);
    InformApiSucceeds(Split(Get(req.query, "hostname").value, ','), LegacyAddress(req.query).value,
                      credentials.username, credentials.password, api);
  }

  /** Whatever the request, only record contents change. */
  lemma HandleRequestChangesOnlyContent(req: Request, decode: string -> Option<string>, api: Api)
    requires WellFormed(api.store)
    ensures var r := HandleRequest(req, decode, api);
      WellFormed(r.api.store) && OnlyContentChanged(api.store, r.api.store)
  {
    var r := HandleRequest(req, decode, api);
    if NicUpdateAdmitted(req) && ParseAuthorization(req.authorization.value, decode).Ok? && VerifyParameters(req.query).None? {
      var credentials := ParseAuthorization(req.authorization.value, decode).value;
      var hostnames := Split(Get(req.query, "hostname").value, ',');
      var ip := LegacyAddress(req.query).value;
      assert r.api == InformApi(hostnames, ip, credentials.username, credentials.password, api).api;
      InformApiChangesOnlyContent(hostnames, ip, credentials.username, credentials.password, api);
    } else {
      assert r.api == api;
      OnlyContentChangedReflexive(api.store);
    }
  }

  /** The worker's `fetch`. The `catch` reads `err.reason`, which no
      exception defines, so every error body is the stack trace; the
      status is `err.status || 500`. */
  function Fetch(req: Request, decode: string -> Option<string>, api: Api): (served: Served)
  {
    var r := HandleRequest(req, decode, api);
    match r.result
    case Ok(response) => Served(response, r.api)
    case Err(e) => Served(Response(ErrorStatus(e), EngineText), r.api)
  }

  /** The statuses the worker answers with: a missing Authorization header
      on an update path is 400, never 401; 404 only for other paths. */
  lemma FetchStatus(req: Request, decode: string -> Option<string>, api: Api)
    ensures var served := Fetch(req, decode, api);
      var r := HandleRequest(req, decode, api);
      && served.response.status in {200, 204, 400, 404, 500}
      && (served.response.status == 200 <==> r.result == Ok(Good))
      && (served.response.status == 400 <==> r.result.Err? && r.result.error.BadRequest?)
      && (served.response.status == 404 <==> !HttpsViolated(req) && req.pathname != "/favicon.ico"
                                              && req.pathname != "/robots.txt"
                                              && req.pathname != "/nic/update" && req.pathname != "/update")
      && (r.result.Err? ==> served.response.body == EngineText)
  {
  }
}

=== FILE: legacy_worker.dfy ===
/** The first worker, index.js: a `switch` on the path, Basic auth
    required on the two update paths, one hostname taken as written, and an
    API client that checks nothing, so every failed or empty reply turns
    into a TypeError of the engine. Its exception classes carry a `reason`
    instead of a message. */
module LegacyWorker {
  import opened Options
  import opened Http
  import opened Params
  import opened BasicAuth
  import opened Cloudflare

  /** `if (options.token) this.token = options.token`: an empty password
      leaves the field unset, and the header reads `Bearer undefined`. */
  function BearerToken(password: string): (token: string)
  {
    if password != "" then password else "undefined"
  }

  /** `findZone`: `body.result[0]`. An unsuccessful reply has a null
      `result` and the indexing throws; an empty one yields `undefined`. */
  function FindZone(token: string, name: string, api: Api): (r: Step<Option<Zone>>)
    ensures r.api == api.(log := api.log + [ListZones(token, name)])
    ensures r.result.Err? <==> token !in api.store.tokens
    ensures r.result.Err? ==> r.result.error == Engine(NoResultList)
    ensures r.result.Ok? ==> (r.result.value.Some? <==> name in api.store.zones)
    ensures r.result.Ok? && r.result.value.Some? ==> r.result.value.value == api.store.zones[name]
  {
    var f := QueryZones(api, token, name);
    match f.body
    case Unsuccessful => Step(Err(Engine(NoResultList)), f.api)
    case Listed(zones) => Step(Ok(if |zones| == 0 then None else Some(zones[0])), f.api)
  }

  /** `findRecord`: `zone.id` throws on an `undefined` zone before any
      request; otherwise `body.result[0]`, of any type. */
  function FindRecord(token: string, zone: Option<Zone>, name: string, api: Api): (r: Step<Option<DnsRecord>>)
    ensures zone.None? ==> r == Step(Err(Engine(UndefinedZone)), api)
    ensures zone.Some? ==>
              && r.api == api.(log := api.log + [ListRecords(token, zone.value.id, name)])
              && (r.result.Err? <==> token !in api.store.tokens || zone.value.id !in api.store.records)
              && (r.result.Err? ==> r.result.error == Engine(NoResultList))
              && (r.result.Ok? ==> (r.result.value.None? <==> Named(api.store.records[zone.value.id], name) == []))
              && (r.result.Ok? && r.result.value.Some? ==>
                    r.result.value.value == Named(api.store.records[zone.value.id], name)[0]
                    && r.result.value.value in api.store.records[zone.value.id])
  {
    match zone
    case None => Step(Err(Engine(UndefinedZone)), api)
    case Some(z) =>
      var f := QueryRecords(api, token, z.id, name);
      match f.body
      case Unsuccessful => Step(Err(Engine(NoResultList)), f.api)
      case Listed(records) => Step(Ok(if |records| == 0 then None else Some(records[0])), f.api)
  }

  /** `updateRecord`: `record.content = value` throws on an `undefined`
      record; a rejected PUT has a null `result`, and `body.result[0]`
      throws. */
  function UpdateRecord(token: string, record: Option<DnsRecord>, value: string, api: Api): (r: Step<()>)
    ensures record.None? ==> r == Step(Err(Engine(UndefinedRecord)), api)
    ensures record.Some? ==>
              var sent := record.value.(content := value);
              && r.api.log == api.log + [PutRecord(token, sent.zoneId, sent.id, sent)]
              && (r.result.Ok? <==> PutAccepted(api.store, token, sent.zoneId, sent.id))
              && (r.result.Err? ==> r.result.error == Engine(NoResultList) && r.api.store == api.store)
    ensures r.api.store.tokens == api.store.tokens && r.api.store.zones == api.store.zones
  {
    match record
    case None => Step(Err(Engine(UndefinedRecord)), api)
    case Some(found) =>
      var sent := found.(content := value);
      var f := UpdateRecordCall(api, token, sent.zoneId, sent.id, sent);
      if f.body then Step(Ok(()), f.api) else Step(Err(Engine(NoResultList)), f.api)
  }

  /** `informAPI`: the username's zone, the hostname's record and the write,
      with the password as bearer token. */
  function InformApi(hostname: string, ip: string, name: string, password: string, api: Api): (r: Step<()>)
    ensures api.log <= r.api.log
    ensures r.api.store.tokens == api.store.tokens && r.api.store.zones == api.store.zones
    ensures r.result.Err? ==> r.result.error.Engine?
  {
    var token := BearerToken(password);
    var zone := FindZone(token, name, api);
    if zone.result.Err? then Step(Err(zone.result.error), zone.api)
    else
      var found := FindRecord(token, zone.result.value, hostname, zone.api);
      if found.result.Err? then Step(Err(found.result.error), found.api)
      else UpdateRecord(token, found.result.value, ip, found.api)
  }

  /** An `informAPI` that succeeds looked up the username's zone and wrote
      one record: the hostname's, as written, with the address; every call
      carries the bearer token. */
  lemma InformApiUpdates(hostname: string, ip: string, name: string, password: string, api: Api)
    ensures var r := InformApi(hostname, ip, name, password, api);
      r.result.Ok? ==>
        && r.api.log[..|api.log|] == api.log
        && |r.api.log| == |api.log| + 3
        && r.api.log[|api.log|] == ListZones(BearerToken(password), name)
        && r.api.log[|api.log| + 1].ListRecords? && r.api.log[|api.log| + 1].name == hostname
        && r.api.log[|api.log| + 2].PutRecord?
        && r.api.log[|api.log| + 2].record.name == hostname
        && r.api.log[|api.log| + 2].record.content == ip
        && (forall k :: |api.log| <= k < |r.api.log| ==> r.api.log[k].token == BearerToken(password))
  {
    var token := BearerToken(password);
    var zone := FindZone(token, name, api);
    if zone.result.Ok? {
      var found := FindRecord(token, zone.result.value, hostname, zone.api);
    }
  }

  /** `informAPI` changes at most the content of one record. */
  lemma InformApiChangesOnlyContent(hostname: string, ip: string, name: string, password: string, api: Api)
    requires WellFormed(api.store)
    ensures var r := InformApi(hostname, ip, name, password, api);
      && WellFormed(r.api.store) && OnlyContentChanged(api.store, r.api.store)
      && AtMostOneRecordChanged(api.store, r.api.store)
  {
    var token := BearerToken(password);
    var zone := FindZone(token, name, api);
    if zone.result.Ok? && zone.result.value.Some? {
      var found := FindRecord(token, zone.result.value, hostname, zone.api);
      if found.result.Ok? && found.result.value.Some? {
        var record := found.result.value.value;
        assert record.zoneId == zone.result.value.value.id;
        PutChangesOnlyContent(found.api, token, record, ip);
        var r := InformApi(hostname, ip, name, password, api);
        assert ChangedAtMost(api.store, r.api.store, record.zoneId, record.id);
        return;
      }
    }
    OnlyContentChangedReflexive(api.store);
    AtMostOneRecordChangedReflexive(api.store);
  }

  /** `informAPI` succeeds exactly when the bearer token is accepted, the
      username names a zone, and that zone holds a record of the hostname,
      of any type. */
  lemma InformApiSucceeds(hostname: string, ip: string, name: string, password: string, api: Api)
    requires WellFormed(api.store)
    ensures InformApi(hostname, ip, name, password, api).result.Ok?
            <==> && BearerToken(password) in api.store.tokens && name in api.store.zones
                 && HoldsName(api.store, api.store.zones[name].id, hostname)
  {
    var token := BearerToken(password);
    var zone := FindZone(token, name, api);
    if zone.result.Ok? && zone.result.value.Some? {
      var z := zone.result.value.value;
      var found := FindRecord(token, zone.result.value, hostname, zone.api);
      if z.id in api.store.records {
        NamedHolds(api.store, z.id, hostname);
      }
      if found.result.Ok? && found.result.value.Some? {
        var records := api.store.records[z.id];
        var record := found.result.value.value;
        var j :| 0 <= j < |records| && records[j] == record;
        assert record.zoneId == z.id;
        assert HasRecordId(records, record.id);
      }
    }
  }

  /** `handleRequest`: the HTTPS gate, then the `switch` on the path. */
  function HandleRequest(req: Request, decode: string -> Option<string>, api: Api): (r: Step<Response>)
    ensures HttpsViolated(req) ==> r == Step(Err(BadRequest(UseHttps)), api)
    ensures !HttpsViolated(req) && (req.pathname == "/favicon.ico" || req.pathname == "/robots.txt")
            ==> r == Step(Ok(NoContent), api)
    ensures !HttpsViolated(req) && req.pathname !in {"/nic/update", "/update", "/favicon.ico", "/robots.txt"}
            ==> r == Step(Ok(NotFound), api)
    ensures !HttpsViolated(req) && (req.pathname == "/nic/update" || req.pathname == "/update")
            && req.authorization.None?
            ==> r == Step(Err(BadRequest(ProvideCredentials)), api)
    ensures NicUpdateAdmitted(req) && ParseAuthorization(req.authorization.value, decode).Ok?
            && VerifyParameters(req.query).Some?
            ==> r == Step(Err(VerifyParameters(req.query).value), api)
    ensures r.result.Ok? ==> r.result.value in {NoContent, NotFound, Good}
    ensures r.result == Ok(Good) ==> NicUpdateAdmitted(req) && VerifyParameters(req.query).None?
    ensures NicUpdateAdmitted(req) && ParseAuthorization(req.authorization.value, decode).Err?
            ==> r == Step(Err(ParseAuthorization(req.authorization.value, decode).error), api)
    ensures r.result.Err? ==> r.result.error.BadRequest? || r.result.error.Engine?
    ensures api.log <= r.api.log
  {
    if HttpsViolated(req) then Step(Err(BadRequest(UseHttps)), api)
    else if req.pathname == "/nic/update" || req.pathname == "/update" then
      if req.authorization.None? then Step(Err(BadRequest(ProvideCredentials)), api)
      else
        match ParseAuthorization(req.authorization.value, decode)
        case Err(e) => Step(Err(e), api)
        case Ok(credentials) =>
          match VerifyParameters(req.query)
          case Some(e) => Step(Err(e), api)
          case None =>
            var inform := InformApi(Get(req.query, "hostname").value, LegacyAddress(req.query).value,
                                    credentials.username, credentials.password, api);
            if inform.result.Err? then Step(Err(inform.result.error), inform.api)
            else Step(Ok(Good), inform.api)
    else if req.pathname == "/favicon.ico" || req.pathname == "/robots.txt" then Step(Ok(NoContent), api)
    else Step(Ok(NotFound), api)
  }

  /** A request answered "good" wrote exactly one record: the `hostname`
      parameter as written, commas and all, with the address. */
  lemma HandleRequestUpdates(req: Request, decode: string -> Option<string>, api: Api)
    ensures var r := HandleRequest(req, decode, api);
      r.result == Ok(Good) ==>
        && ParseAuthorization(req.authorization.value, decode).Ok?
        && var credentials := ParseAuthorization(req.authorization.value, decode).value;
           && |Writes(r.api.log)| == |Writes(api.log)| + 1
           && Writes(r.api.log)[..|Writes(api.log)|] == Writes(api.log)
           && Writes(r.api.log)[|Writes(api.log)|].name == Get(req.query, "hostname").value
           && Writes(r.api.log)[|Writes(api.log)|].content == LegacyAddress(req.query).value
           && ZoneLookups(r.api.log) == ZoneLookups(api.log) + [credentials.username]
  {
    var r := HandleRequest(req, decode, api);
    if r.result == Ok(Good) {
      var credentials := ParseAuthorization(req.authorization.value, decode).value;
      var hostname, ip := Get(req.query, "hostname").value, LegacyAddress(req.query).value;
      HandleRequestRunsUpdate(req, decode, api);
      var token := BearerToken(credentials.password);
      var zone := FindZone(token, credentials.username, api);
      var found := FindRecord(token, zone.result.value, hostname, zone.api);
      var sent := found.result.value.value.(content := ip);
      assert r.api.log == api.log + [ListZones(token, credentials.username)]
                                  + [ListRecords(token, zone.result.value.value.id, hostname)]
                                  + [PutRecord(token, sent.zoneId, sent.id, sent)];
      WritesSnoc(api.log, ListZones(token, credentials.username));
      WritesSnoc(zone.api.log, ListRecords(token, zone.result.value.value.id, hostname));
      WritesSnoc(found.api.log, PutRecord(token, sent.zoneId, sent.id, sent));
      ZoneLookupsSnoc(api.log, ListZones(token, credentials.username));
      ZoneLookupsSnoc(zone.api.log, ListRecords(token, zone.result.value.value.id, hostname));
      ZoneLookupsSnoc(found.api.log, PutRecord(token, sent.zoneId, sent.id, sent));
    }
  }

  /** An admitted request with good credentials and valid parameters runs
      `informAPI` on the `hostname` parameter as written, and its outcome is
      the answer: "good" exactly when it succeeds, else its error. */
  lemma HandleRequestRunsUpdate(req: Request, decode: string -> Option<string>, api: Api)
    requires NicUpdateAdmitted(req) && ParseAuthorization(req.authorization.value, decode).Ok?
    requires VerifyParameters(req.query).None?
    ensures Get(req.query, "hostname").Some? && LegacyAddress(req.query).Some?
    ensures var r := HandleRequest(req, decode, api);
      var credentials := ParseAuthorization(req.authorization.value, decode).value;
      var u := InformApi(Get(req.query, "hostname").value, LegacyAddress(req.query).value,
                         credentials.username, credentials.password, api);
      && r.api == u.api
      && (r.result == Ok(Good) <==> u.result.Ok?)
      && (u.result.Err? ==> r.result == Err(u.result.error))
  {
  }

  /** Such a request is answered "good" exactly when, in the store it
      starts from, the bearer token is accepted, the username names a
      zone, and that zone holds a record named by the whole `hostname`
      parameter. */
  lemma HandleRequestGood(req: Request, decode: string -> Option<string>, api: Api)
    requires WellFormed(api.store)
    requires NicUpdateAdmitted(req) && ParseAuthorization(req.authorization.value, decode).Ok?
    requires VerifyParameters(req.query).None?
    ensures Get(req.query, "hostname").Some?
    ensures var credentials := ParseAuthorization(req.authorization.value, decode).value;
      HandleRequest(req, decode, api).result == Ok(Good)
      <==> && BearerToken(credentials.password) in api.store.tokens && credentials.username in api.store.zones
           && HoldsName(api.store, api.store.zones[credentials.username].id, Get(req.query, "hostname").value)
  {
    var credentials := ParseAuthorization(req.authorization.value, decode).value;
    HandleRequestRunsUpdate(req, decode, api);
    InformApiSucceeds(Get(req.query, "hostname").value, LegacyAddress(req.query).value,
                      credentials.username, credentials.password, api);
  }

  /** Whatever the request, only record contents change. */
  lemma HandleRequestChangesOnlyContent(req: Request, decode: string -> Option<string>, api: Api)
    requires WellFormed(api.store)
    ensures var r := HandleRequest(req, decode, api);
      WellFormed(r.api.store) && OnlyContentChanged(api.store, r.api.store)
  {
    var r := HandleRequest(req, decode, api);
    if NicUpdateAdmitted(req) && ParseAuthorization(req.authorization.value, decode).Ok? && VerifyParameters(req.query).None? {
      var credentials := ParseAuthorization(req.authorization.value, decode).value;
      var hostname, ip := Get(req.query, "hostname").value, LegacyAddress(req.query).value;
      assert r.api == InformApi(hostname, ip, credentials.username, credentials.password, api).api;
      InformApiChangesOnlyContent(hostname, ip, credentials.username, credentials.password, api);
    } else {
      assert r.api == api;
      OnlyContentChangedReflexive(api.store);
    }
  }

  /** The `catch` of the fetch listener: `err.reason || err.stack ||
      'Unknown Error'` as the body and `err.status || 500` as the status.
      The worker's own exceptions have a `reason` but no `stack`; the
      engine's TypeErrors have a `stack` but no `reason`. */
  function ErrorResponse(e: Exception): (response: Response)
    ensures e.BadRequest? && e.reason != "" ==> response == Response(400, Text(e.reason))
    ensures e.Unauthorized? && e.reason != "" ==> response == Response(401, Text(e.reason))
    ensures e.Engine? ==> response == Response(500, EngineText)
    ensures !e.Engine? && e.reason == "" ==> response.body == Text("Unknown Error")
    ensures response.body == EngineText <==> e.Engine?
  {
    if e.Engine? then Response(ErrorStatus(e), EngineText)
    else if e.reason != "" then Response(ErrorStatus(e), Text(e.reason))
    else Response(ErrorStatus(e), Text("Unknown Error"))
  }

  /** An exception with a reason other than the fallback text can be read
      back from its response: the status tells the kind and the body the
      reason. */
  lemma ErrorResponseInjective(e1: Exception, e2: Exception)
    requires !e1.Engine? && e1.reason != "" && e1.reason != "Unknown Error"
    requires !e2.Engine? && e2.reason != "" && e2.reason != "Unknown Error"
    ensures ErrorResponse(e1) == ErrorResponse(e2) <==> e1 == e2
  {
  }

  /** The fetch listener: every exception becomes a response. */
  function Fetch(req: Request, decode: string -> Option<string>, api: Api): (served: Served)
  {
    var r := HandleRequest(req, decode, api);
    match r.result
    case Ok(response) => Served(response, r.api)
    case Err(e) => Served(ErrorResponse(e), r.api)
  }

  /** The statuses the worker answers with. It defines an
      UnauthorizedException but never throws one, so there is no 401, and
      every API failure is a 500 whose body is the engine's stack trace. */
  lemma FetchStatus(req: Request, decode: string -> Option<string>, api: Api)
    ensures var served := Fetch(req, decode, api);
      var r := HandleRequest(req, decode, api);
      && served.response.status in {200, 204, 400, 404, 500}
      && (served.response.status == 200 <==> r.result == Ok(Good))
      && (served.response.status == 400 <==> r.result.Err? && r.result.error.BadRequest?)
      && (served.response.status == 500 <==> r.result.Err? && r.result.error.Engine?)
      && (served.response.status == 500 ==> served.response.body == EngineText)
      && (r.result.Err? && r.result.error.BadRequest? && r.result.error.reason != ""
          ==> served.response.body == Text(r.result.error.reason))
  {
  }
}

=== FILE: options.dfy ===
/** JavaScript's `null` or `undefined` next to a real value: a query
    parameter that is absent, a `result[0]` past the end of a list, a
    missing Authorization header. */
module Options {
  datatype Option<+T> = None | Some(value: T)
}

=== FILE: params.dfy ===
/** Query-parameter access and JavaScript's `||` on optional strings: the
    shared ground of every version's parameter handling. */
module Params {
  import opened Options
  import opened Http

  /** `searchParams.get(name)`: the value of the first pair with that name. */
  function Get(query: seq<(string, string)>, name: string): (v: Option<string>)
    ensures v.None? <==> forall k :: 0 <= k < |query| ==> query[k].0 != name
    ensures v.Some? ==> exists k :: 0 <= k < |query| && query[k] == (name, v.value)
                                    && forall j :: 0 <= j < k ==> query[j].0 != name
  {
    if |query| == 0 then None
    else if query[0].0 == name then Some(query[0].1)
    else
      var v := Get(query[1..], name);
      assert forall k :: 1 <= k < |query| ==> query[k] == query[1..][k - 1];
      v
  }

  /** JavaScript truthiness of a `string | null`: present and non-empty. */
  predicate Truthy(v: Option<string>)
  {
    v.Some? && v.value != ""
  }

  /** `a || b || … || z`: the first truthy candidate, else the last one,
      whatever it is (so an empty last candidate yields "", not null). */
  function FirstTruthy(candidates: seq<Option<string>>): (r: Option<string>)
    requires |candidates| >= 1
    ensures forall k | 0 <= k < |candidates| && Truthy(candidates[k])
                       && (forall j :: 0 <= j < k ==> !Truthy(candidates[j])) :: r == candidates[k]
    ensures (forall k :: 0 <= k < |candidates| ==> !Truthy(candidates[k]))
              ==> r == candidates[|candidates| - 1]
  {
    if |candidates| == 1 || Truthy(candidates[0]) then candidates[0]
    else
      var r := FirstTruthy(candidates[1..]);
      assert forall k :: 1 <= k < |candidates| ==> candidates[k] == candidates[1..][k - 1];
      r
  }

  /** The hostname sources of src/index.ts, first truthy wins. */
  function HostnameParam(query: seq<(string, string)>): (v: Option<string>)
    ensures Truthy(Get(query, "hostname")) ==> v == Get(query, "hostname")
    ensures !Truthy(Get(query, "hostname")) && Truthy(Get(query, "host")) ==> v == Get(query, "host")
    ensures !Truthy(Get(query, "hostname")) && !Truthy(Get(query, "host")) ==> v == Get(query, "domains")
    ensures v.None? <==> !Truthy(Get(query, "hostname")) && !Truthy(Get(query, "host")) && Get(query, "domains").None?
  {
    var candidates := [Get(query, "hostname"), Get(query, "host"), Get(query, "domains")];
    assert !Truthy(candidates[0]) && Truthy(candidates[1]) ==> FirstTruthy(candidates) == candidates[1];
    FirstTruthy(candidates)
  }

  /** The address sources of src/index.ts, first truthy wins; the
      `Cf-Connecting-Ip` header is the last resort. */
  function AddressParam(req: Request): (v: Option<string>)
    ensures Truthy(Get(req.query, "ips")) ==> v == Get(req.query, "ips")
    ensures !Truthy(Get(req.query, "ips")) && Truthy(Get(req.query, "ip")) ==> v == Get(req.query, "ip")
    ensures (!Truthy(Get(req.query, "ips")) && !Truthy(Get(req.query, "ip")) && Truthy(Get(req.query, "myip")))
            ==> v == Get(req.query, "myip")
    ensures (!Truthy(Get(req.query, "ips")) && !Truthy(Get(req.query, "ip")) && !Truthy(Get(req.query, "myip")))
            ==> v == req.connectingIp
    ensures v.None? <==> !Truthy(Get(req.query, "ips")) && !Truthy(Get(req.query, "ip"))
                         && !Truthy(Get(req.query, "myip")) && req.connectingIp.None?
  {
    var candidates := [Get(req.query, "ips"), Get(req.query, "ip"), Get(req.query, "myip"), req.connectingIp];
    assert !Truthy(candidates[0]) && Truthy(candidates[1]) ==> FirstTruthy(candidates) == candidates[1];
    assert (!Truthy(candidates[0]) && !Truthy(candidates[1]) && Truthy(candidates[2]))
           ==> FirstTruthy(candidates) == candidates[2];
    FirstTruthy(candidates)
  }

  /** `verifyParameters` of src/index.js and index.js: the hostname is
      checked before the address, each with its own message. */
  function VerifyParameters(query: seq<(string, string)>): (r: Option<Exception>)
    ensures !Truthy(Get(query, "hostname")) <==> r == Some(BadRequest(NeedHostname))
    ensures (Truthy(Get(query, "hostname")) && !Truthy(Get(query, "ip")) && !Truthy(Get(query, "myip")))
            <==> r == Some(BadRequest(NeedAddress))
    ensures r.None? <==> Truthy(Get(query, "hostname")) && Truthy(LegacyAddress(query))
  {
    if !Truthy(Get(query, "hostname")) then Some(BadRequest(NeedHostname))
    else if !Truthy(Get(query, "ip")) && !Truthy(Get(query, "myip")) then Some(BadRequest(NeedAddress))
    else None
  }

  /** `searchParams.get("ip") || searchParams.get("myip")` of src/index.js and index.js. */
  function LegacyAddress(query: seq<(string, string)>): (v: Option<string>)
    ensures Truthy(Get(query, "ip")) ==> v == Get(query, "ip")
    ensures !Truthy(Get(query, "ip")) ==> v == Get(query, "myip")
  {
    FirstTruthy([Get(query, "ip"), Get(query, "myip")])
  }

  const NeedHostname := "You must specify a hostname"
  const NeedAddress := "You must specify an ip address"
  const NeedBoth := "You must specify both hostname(s) and IP address(es)"
}

=== FILE: ts_worker.dfy ===
/** The current worker, src/index.ts: any path ending in `/update`,
    credentials from Basic auth or a `token` parameter, several hostname and
    address parameter names, one update pass per address, zones found by
    the hostname's domain and cached for the pass, records filtered by
    address family. */
module TsWorker {
  import opened Options
  import opened JsText
  import opened Http
  import opened Params
  import opened BasicAuth
  import opened Cloudflare

  // ---------------------------------------------------------------- client

  /** `isIPV4 ? 'A' : 'AAAA'`, with `isIPV4 = ip.includes('.')`. */
  function RecordType(ip: string): string
  {
    if '.' in ip then "A" else "AAAA"
  }

  /** `records.filter(rr => rr.type === rrType)[0]`: `undefined` (None)
      when no record has the type. */
  function FirstOfType(records: seq<DnsRecord>, rrType: string): (r: Option<DnsRecord>)
    ensures r.None? <==> forall k :: 0 <= k < |records| ==> records[k].rrType != rrType
    ensures r.Some? ==> exists k :: 0 <= k < |records| && records[k] == r.value && r.value.rrType == rrType
                                    && forall j :: 0 <= j < k ==> records[j].rrType != rrType
  {
    if |records| == 0 then None
    else if records[0].rrType == rrType then Some(records[0])
    else
      var r := FirstOfType(records[1..], rrType);
      assert forall k :: 1 <= k < |records| ==> records[k] == records[1..][k - 1];
      r
  }

  /** `Cloudflare.findRecord`: lists the zone's records of that name,
      fails only when the reply is unsuccessful or the unfiltered list is
      empty, and otherwise yields the first record of the address family,
      which may be `undefined`. */
  function FindRecord(token: string, zone: Zone, name: string, ip: string, api: Api): (r: Step<Option<DnsRecord>>)
    ensures r.api == api.(log := api.log + [ListRecords(token, zone.id, name)])
    ensures r.result.Err? <==> token !in api.store.tokens || zone.id !in api.store.records
                               || Named(api.store.records[zone.id], name) == []
    ensures r.result.Err? ==> r.result.error == CloudflareApi("Failed to find DNS record '" + name + "'")
    ensures r.result.Ok? && r.result.value.Some? ==>
              var record := r.result.value.value;
              && record in api.store.records[zone.id]
              && record.name == name && record.rrType == RecordType(ip)
    ensures r.result.Ok? && r.result.value.None? ==>
              forall x :: x in Named(api.store.records[zone.id], name) ==> x.rrType != RecordType(ip)
    ensures r.result.Ok? ==> r.result.value == FirstOfType(Named(api.store.records[zone.id], name), RecordType(ip))
  {
    var f := QueryRecords(api, token, zone.id, name);
    match f.body
    case Unsuccessful => Step(Err(CloudflareApi("Failed to find DNS record '" + name + "'")), f.api)
    case Listed(records) =>
      if |records| == 0 then Step(Err(CloudflareApi("Failed to find DNS record '" + name + "'")), f.api)
      else Step(Ok(FirstOfType(records, RecordType(ip))), f.api)
  }

  /** `Cloudflare.updateRecord`: sets `content` and PUTs the whole record
      back. An `undefined` record fails with a TypeError before any request. */
  function UpdateRecord(token: string, record: Option<DnsRecord>, value: string, api: Api): (r: Step<()>)
    ensures record.None? ==> r == Step(Err(Engine(UndefinedRecord)), api)
    ensures record.Some? ==>
              var sent := record.value.(content := value);
              && r.api.log == api.log + [PutRecord(token, sent.zoneId, sent.id, sent)]
              && (r.result.Ok? <==> PutAccepted(api.store, token, sent.zoneId, sent.id))
              && (r.result.Err? ==> r.result.error == CloudflareApi("Failed to update DNS record")
                                    && r.api.store == api.store)
    ensures r.api.store.tokens == api.store.tokens && r.api.store.zones == api.store.zones
  {
    match record
    case None => Step(Err(Engine(UndefinedRecord)), api)
    case Some(found) =>
      var sent := found.(content := value);
      var f := UpdateRecordCall(api, token, sent.zoneId, sent.id, sent);
      if f.body then Step(Ok(()), f.api)
      else Step(Err(CloudflareApi("Failed to update DNS record")), f.api)
  }

  // ---------------------------------------------------------------- zones

  /** Position just after the last line terminator of `s`, or 0. */
  function LineStart(s: string): (p: nat)
    ensures p <= |s|
    ensures forall k :: p <= k < |s| ==> !IsLineTerminator(s[k])
    ensures p > 0 ==> IsLineTerminator(s[p - 1])
  {
    if |s| == 0 then 0
    else if IsLineTerminator(s[|s| - 1]) then |s|
    else LineStart(s[..|s| - 1])
  }

  /** `hostname.replace(/.*?([^.]+\.[^.]+)$/, '$1')`. The captured group
      is the hostname's last two dot-separated labels, both non-empty
      (`[^.]` matches every other character, line terminators included).
      The lazy `.*?` starts at the earliest position from which it reaches
      that group without crossing a line terminator, so the text up to the
      last line terminator in front of the group survives the replacement.
      Without a match the hostname is left as it is. */
  function RegistrableDomain(hostname: string): string
  {
    var labels := Split(hostname, '.');
    var n := |labels|;
    if n < 2 || labels[n - 2] == "" || labels[n - 1] == "" then hostname
    else
      var group := labels[n - 2] + "." + labels[n - 1];
      JoinSplit(hostname, '.');
      JoinEndsWithLastTwo(labels, '.');
      Replaced(hostname, group)
  }

  /** The replacement of a match of the regular expression whose group is
      the last `|group|` characters: the text up to the last line
      terminator in front of the group, then the group. */
  function Replaced(hostname: string, group: string): string
    requires |group| <= |hostname|
  {
    var front := hostname[..|hostname| - |group|];
    front[..LineStart(front)] + group
  }

  /** On a single line the replacement is the group alone. */
  lemma ReplacedOneLine(hostname: string, group: string)
    requires SingleLine(hostname) && |group| <= |hostname|
    ensures Replaced(hostname, group) == group
  {
    var front := hostname[..|hostname| - |group|];
    SingleLinePrefix(hostname, |front|);
    LineStartOfOneLine(front);
    assert front[..LineStart(front)] + group == group;
  }

  /** Text without line terminators starts its last line at position 0. */
  lemma LineStartOfOneLine(s: string)
    requires SingleLine(s)
    ensures LineStart(s) == 0
  {
    var p := LineStart(s);
    if p > 0 {
      SingleLineAt(s, p - 1);
    }
  }

  /** On a single-line hostname the derived domain is its last two labels
      when both are non-empty, and the hostname itself otherwise (a
      dot-free hostname comes back unchanged). */
  lemma RegistrableDomainLabels(hostname: string)
    requires SingleLine(hostname)
    ensures var labels := Split(hostname, '.');
      var n := |labels|;
      RegistrableDomain(hostname)
        == if n >= 2 && labels[n - 2] != "" && labels[n - 1] != "" then labels[n - 2] + "." + labels[n - 1]
           else hostname
  {
    var labels := Split(hostname, '.');
    var n := |labels|;
    if n >= 2 && labels[n - 2] != "" && labels[n - 1] != "" {
      var group := labels[n - 2] + "." + labels[n - 1];
      JoinSplit(hostname, '.');
      JoinEndsWithLastTwo(labels, '.');
      ReplacedOneLine(hostname, group);
    }
  }

  /** On a single-line hostname the derived domain is a suffix of it. */
  lemma RegistrableDomainSuffix(hostname: string)
    requires SingleLine(hostname)
    ensures EndsWith(hostname, RegistrableDomain(hostname))
  {
    var labels := Split(hostname, '.');
    var n := |labels|;
    RegistrableDomainLabels(hostname);
    if n >= 2 && labels[n - 2] != "" && labels[n - 1] != "" {
      JoinSplit(hostname, '.');
      JoinEndsWithLastTwo(labels, '.');
    } else {
      assert hostname[|hostname| - |hostname|..] == hostname;
    }
  }

  /** Two non-empty dot-free labels joined by a dot are their own domain. */
  lemma RegistrableDomainOfTwoLabels(second: string, last: string)
    requires second != "" && last != "" && '.' !in second && '.' !in last
    ensures RegistrableDomain(second + "." + last) == second + "." + last
  {
    var domain := second + "." + last;
    assert Join([second, last], '.') == domain;
    SplitJoin([second, last], '.');
    assert domain[..|domain| - |domain|] == "";
  }

  /** Deriving the domain of a derived domain changes nothing. */
  lemma RegistrableDomainIdempotent(hostname: string)
    requires SingleLine(hostname)
    ensures RegistrableDomain(RegistrableDomain(hostname)) == RegistrableDomain(hostname)
  {
    var labels := Split(hostname, '.');
    var n := |labels|;
    RegistrableDomainLabels(hostname);
    if n >= 2 && labels[n - 2] != "" && labels[n - 1] != "" {
      var domain := RegistrableDomain(hostname);
      SplitPiecesFree(hostname, '.');
      assert '.' !in labels[n - 2] && '.' !in labels[n - 1];
      RegistrableDomainSuffix(hostname);
      SingleLineSuffix(hostname, |hostname| - |domain|);
      RegistrableDomainOfTwoLabels(labels[n - 2], labels[n - 1]);
    }
  }

  /** `name && hostname.endsWith(name) ? name : <regex domain>`: the
      username names the zone when the hostname ends with it. */
  function ZoneName(hostname: string, name: string): (domain: string)
    ensures name != "" && EndsWith(hostname, name) ==> domain == name
    ensures !(name != "" && EndsWith(hostname, name)) ==> domain == RegistrableDomain(hostname)
  {
    if name != "" && EndsWith(hostname, name) then name else RegistrableDomain(hostname)
  }

  /** On a single-line hostname the zone name is a suffix of it, and a
      truthy username is the zone name exactly when the hostname ends with it. */
  lemma ZoneNameSuffix(hostname: string, name: string)
    requires SingleLine(hostname)
    ensures EndsWith(hostname, ZoneName(hostname, name))
    ensures name != "" ==> (ZoneName(hostname, name) == name <==> EndsWith(hostname, name))
  {
    if !(name != "" && EndsWith(hostname, name)) {
      RegistrableDomainSuffix(hostname);
    }
  }

  /** The zone name of a zone name is itself: deriving it again, as the
      cache key for a hostname that is already a zone, changes nothing. */
  lemma ZoneNameIdempotent(hostname: string, name: string)
    requires SingleLine(hostname)
    ensures ZoneName(ZoneName(hostname, name), name) == ZoneName(hostname, name)
  {
    if name != "" && EndsWith(hostname, name) {
      assert name[|name| - |name|..] == name;
    } else {
      var domain := RegistrableDomain(hostname);
      RegistrableDomainSuffix(hostname);
      EndsWithTransitive(hostname, domain, name);
      assert ZoneName(hostname, name) == domain;
      RegistrableDomainIdempotent(hostname);
      assert ZoneName(domain, name) == RegistrableDomain(domain);
    }
  }

  // ---------------------------------------------------------------- passes

  /** What a write sets: the record's name, type and content. */
  type Target = (string, string, string)

  function WriteTargets(records: seq<DnsRecord>): (targets: seq<Target>)
    ensures |targets| == |records|
    ensures forall k :: 0 <= k < |records| ==>
              targets[k] == (records[k].name, records[k].rrType, records[k].content)
  {
    seq(|records|, k requires 0 <= k < |records| => (records[k].name, records[k].rrType, records[k].content))
  }

  lemma WriteTargetsAppend(a: seq<DnsRecord>, b: seq<DnsRecord>)
    ensures WriteTargets(a + b) == WriteTargets(a) + WriteTargets(b)
  {
  }

  /** One write per hostname, in order, each with the address and the
      record type of its family. */
  function Targets(hostnames: seq<string>, ip: string): seq<Target>
  {
    seq(|hostnames|, k requires 0 <= k < |hostnames| => (hostnames[k], RecordType(ip), ip))
  }

  lemma TargetsCons(hostnames: seq<string>, ip: string)
    requires |hostnames| > 0
    ensures Targets(hostnames, ip) == [(hostnames[0], RecordType(ip), ip)] + Targets(hostnames[1..], ip)
  {
  }

  /** The writes of one pass per (trimmed) address, address after address. */
  function Fanout(ips: seq<string>, hostnames: seq<string>): seq<Target>
  {
    if |ips| == 0 then [] else Targets(hostnames, Trim(ips[0])) + Fanout(ips[1..], hostnames)
  }

  lemma AppendAssociative<T>(a: seq<T>, b: seq<T>, c: seq<T>)
    ensures a + b + c == a + (b + c)
  {
  }

  /** A list that lies between `before + first` and `before + first + more`
      lies between `before` and `before + (first + more)`. */
  lemma PrefixWiden<T>(before: seq<T>, first: seq<T>, more: seq<T>, after: seq<T>)
    requires before + first <= after <= before + first + more
    ensures before <= after <= before + (first + more)
  {
    assert before + first + more == before + (first + more);
    assert after[..|before|] == (before + first)[..|before|];
  }

  /** Whether a zone cache hands out exactly the store's zones. */
  predicate CacheAgrees(zones: map<string, Zone>, store: Store)
  {
    forall domain :: domain in zones ==> domain in store.zones && zones[domain] == store.zones[domain]
  }

  /** `zones.has(domain) ? zones.get(domain) : await findZone(domain)`:
      a zone lookup only when the cache misses. */
  function CachedZone(zones: map<string, Zone>, domain: string, token: string, api: Api): (r: Step<Zone>)
    ensures r.api.store == api.store
    ensures r.api.log == api.log + if domain in zones then [] else [ListZones(token, domain)]
    ensures domain in zones ==> r.result == Ok(zones[domain])
    ensures domain !in zones && r.result.Ok? ==> domain in api.store.zones && r.result.value == api.store.zones[domain]
    ensures r.result.Err? ==> r.result.error.CloudflareApi?
  {
    if domain in zones then Step(Ok(zones[domain]), api) else FindZone(token, domain, api)
  }

  /** The record half of one hostname: `findRecord`, then `updateRecord`. */
  function Touch(hostname: string, ip: string, token: string, zone: Zone, api: Api): (r: Step<()>)
    ensures api.log <= r.api.log
    ensures r.api.store.tokens == api.store.tokens && r.api.store.zones == api.store.zones
    ensures r.result.Err? ==> r.result.error.CloudflareApi? || r.result.error.Engine?
  {
    var found := FindRecord(token, zone, hostname, ip, api);
    if found.result.Err? then Step(Err(found.result.error), found.api)
    else UpdateRecord(token, found.result.value, ip, found.api)
  }

  /** One hostname of `informAPI`'s loop: its zone from the cache or from
      `findZone`, its record, and the write. Yields the zone it used. */
  function Visit(hostname: string, domain: string, ip: string, token: string,
                 zones: map<string, Zone>, api: Api): (r: Step<Zone>)
    ensures api.log <= r.api.log
    ensures r.api.store.tokens == api.store.tokens && r.api.store.zones == api.store.zones
    ensures r.result.Err? ==> r.result.error.CloudflareApi? || r.result.error.Engine?
  {
    var z := CachedZone(zones, domain, token, api);
    if z.result.Err? then z
    else
      var touch := Touch(hostname, ip, token, z.result.value, z.api);
      if touch.result.Err? then Step(Err(touch.result.error), touch.api)
      else Step(Ok(z.result.value), touch.api)
  }

  /** The loop of `informAPI` from a given hostname on, with the zone
      cache `zones` built so far; the first failure ends the pass. */
  function Pass(hostnames: seq<string>, domains: seq<string>, ip: string, token: string,
                zones: map<string, Zone>, api: Api): (r: Step<map<string, Zone>>)
    requires |domains| == |hostnames|
    ensures api.log <= r.api.log
    ensures r.api.store.tokens == api.store.tokens && r.api.store.zones == api.store.zones
    ensures r.result.Err? ==> r.result.error.CloudflareApi? || r.result.error.Engine?
    decreases |hostnames|
  {
    if |hostnames| == 0 then Step(Ok(zones), api)
    else
      var visit := Visit(hostnames[0], domains[0], ip, token, zones, api);
      if visit.result.Err? then Step(Err(visit.result.error), visit.api)
      else Pass(hostnames[1..], domains[1..], ip, token, zones[domains[0] := visit.result.value], visit.api)
  }

  /** Each hostname's zone name. `informAPI` computes it inside its loop;
      as it depends on the hostname and the username alone, computing all of
      them first makes no difference. */
  function Domains(hostnames: seq<string>, name: string): (domains: seq<string>)
    ensures |domains| == |hostnames|
    ensures forall k :: 0 <= k < |hostnames| ==> domains[k] == ZoneName(hostnames[k], name)
  {
    seq(|hostnames|, k requires 0 <= k < |hostnames| => ZoneName(hostnames[k], name))
  }

  /** `informAPI`: one pass over all hostnames for one address, with a
      fresh zone cache. */
  function InformApi(hostnames: seq<string>, ip: string, name: string, token: string, api: Api): (r: Step<()>)
    ensures api.log <= r.api.log
    ensures r.api.store.tokens == api.store.tokens && r.api.store.zones == api.store.zones
    ensures r.result.Err? ==> r.result.error.CloudflareApi? || r.result.error.Engine?
  {
    var pass := Pass(hostnames, Domains(hostnames, name), ip, token, map[], api);
    if pass.result.Err? then Step(Err(pass.result.error), pass.api) else Step(Ok(()), pass.api)
  }

  /** Both calls of a hostname's record half carry the bearer token. */
  lemma TouchTokens(hostname: string, ip: string, token: string, zone: Zone, api: Api)
    ensures TokenFrom(Touch(hostname, ip, token, zone, api).api.log, |api.log|, token)
  {
    var found := FindRecord(token, zone, hostname, ip, api);
    assert TokenFrom(found.api.log, |api.log|, token);
    if found.result.Ok? {
      var put := UpdateRecord(token, found.result.value, ip, found.api);
      assert Touch(hostname, ip, token, zone, api).api == put.api;
      assert TokenFrom(put.api.log, |found.api.log|, token);
      TokenFromExtend(found.api.log, put.api.log, |api.log|, token);
    }
  }

  /** Every call of one hostname's visit carries the bearer token. */
  lemma VisitTokens(hostname: string, domain: string, ip: string, token: string,
                    zones: map<string, Zone>, api: Api)
    ensures TokenFrom(Visit(hostname, domain, ip, token, zones, api).api.log, |api.log|, token)
  {
    var z := CachedZone(zones, domain, token, api);
    assert TokenFrom(z.api.log, |api.log|, token);
    if z.result.Ok? {
      TouchTokens(hostname, ip, token, z.result.value, z.api);
      TokenFromExtend(z.api.log, Touch(hostname, ip, token, z.result.value, z.api).api.log, |api.log|, token);
    }
  }

  /** Every call of a pass carries the bearer token. */
  lemma {:induction false} PassTokens(hostnames: seq<string>, domains: seq<string>, ip: string, token: string,
                                      zones: map<string, Zone>, api: Api)
    requires |domains| == |hostnames|
    ensures TokenFrom(Pass(hostnames, domains, ip, token, zones, api).api.log, |api.log|, token)
    decreases |hostnames|
  {
    if |hostnames| > 0 {
      var visit := Visit(hostnames[0], domains[0], ip, token, zones, api);
      VisitTokens(hostnames[0], domains[0], ip, token, zones, api);
      if visit.result.Ok? {
        var zones' := zones[domains[0] := visit.result.value];
        var rest := Pass(hostnames[1..], domains[1..], ip, token, zones', visit.api);
        PassTokens(hostnames[1..], domains[1..], ip, token, zones', visit.api);
        TokenFromExtend(visit.api.log, rest.api.log, |api.log|, token);
      }
    }
  }

  /** A record half that succeeds writes the hostname's record with the
      address and the record type of its family. */
  lemma TouchTargets(hostname: string, ip: string, token: string, zone: Zone, api: Api)
    ensures var r := Touch(hostname, ip, token, zone, api);
      r.result.Ok? ==> WriteTargets(Writes(r.api.log))
                       == WriteTargets(Writes(api.log)) + [(hostname, RecordType(ip), ip)]
  {
    var found := FindRecord(token, zone, hostname, ip, api);
    if Touch(hostname, ip, token, zone, api).result.Ok? {
      WritesSnoc(api.log, ListRecords(token, zone.id, hostname));
      var sent := found.result.value.value.(content := ip);
      WritesSnoc(found.api.log, PutRecord(token, sent.zoneId, sent.id, sent));
      WriteTargetsAppend(Writes(found.api.log), [sent]);
    }
  }

  /** A visit that succeeds writes one record: the hostname's, with the
      pass's address and the record type of its family. */
  lemma VisitTargets(hostname: string, domain: string, ip: string, token: string,
                     zones: map<string, Zone>, api: Api)
    ensures var r := Visit(hostname, domain, ip, token, zones, api);
      r.result.Ok? ==> WriteTargets(Writes(r.api.log))
                       == WriteTargets(Writes(api.log)) + [(hostname, RecordType(ip), ip)]
  {
    var z := CachedZone(zones, domain, token, api);
    if z.result.Ok? {
      assert Writes(z.api.log) == Writes(api.log) by {
        if domain !in zones {
          WritesSnoc(api.log, ListZones(token, domain));
        }
      }
      TouchTargets(hostname, ip, token, z.result.value, z.api);
    }
  }

  /** A pass that succeeds writes each hostname once, in order, with the
      pass's address and the record type of its family. */
  lemma {:induction false} PassTargets(hostnames: seq<string>, domains: seq<string>, ip: string, token: string,
                                       zones: map<string, Zone>, api: Api)
    requires |domains| == |hostnames|
    ensures var r := Pass(hostnames, domains, ip, token, zones, api);
      r.result.Ok? ==> WriteTargets(Writes(r.api.log)) == WriteTargets(Writes(api.log)) + Targets(hostnames, ip)
    decreases |hostnames|
  {
    if |hostnames| > 0 {
      var visit := Visit(hostnames[0], domains[0], ip, token, zones, api);
      if visit.result.Ok? {
        var zones' := zones[domains[0] := visit.result.value];
        var rest := Pass(hostnames[1..], domains[1..], ip, token, zones', visit.api);
        assert Pass(hostnames, domains, ip, token, zones, api) == rest;
        if rest.result.Ok? {
          calc {
            WriteTargets(Writes(rest.api.log));
            { PassTargets(hostnames[1..], domains[1..], ip, token, zones', visit.api); }
            WriteTargets(Writes(visit.api.log)) + Targets(hostnames[1..], ip);
            { VisitTargets(hostnames[0], domains[0], ip, token, zones, api); }
            WriteTargets(Writes(api.log)) + [(hostnames[0], RecordType(ip), ip)] + Targets(hostnames[1..], ip);
            { AppendAssociative(WriteTargets(Writes(api.log)), [(hostnames[0], RecordType(ip), ip)], Targets(hostnames[1..], ip)); }
            WriteTargets(Writes(api.log)) + ([(hostnames[0], RecordType(ip), ip)] + Targets(hostnames[1..], ip));
            { TargetsCons(hostnames, ip); }
            WriteTargets(Writes(api.log)) + Targets(hostnames, ip);
          }
        }
      }
    }
  }

  /** The domains a pass that succeeds looks up, in order: each hostname's
      domain unless the cache holds it already, after which it does. */
  function FreshDomains(domains: seq<string>, cached: set<string>): seq<string>
    decreases |domains|
  {
    if |domains| == 0 then []
    else
      var domain := domains[0];
      (if domain in cached then [] else [domain]) + FreshDomains(domains[1..], cached + {domain})
  }

  /** No domain is looked up twice, none that was cached already, and only
      domains of the pass are. */
  lemma {:induction false} FreshDomainsDistinct(domains: seq<string>, cached: set<string>)
    ensures var looked := FreshDomains(domains, cached);
      && NoDuplicates(looked)
      && (forall k :: 0 <= k < |looked| ==> looked[k] !in cached && looked[k] in domains)
    decreases |domains|
  {
    if |domains| > 0 {
      var domain := domains[0];
      FreshDomainsDistinct(domains[1..], cached + {domain});
      var first := if domain in cached then [] else [domain];
      var rest := FreshDomains(domains[1..], cached + {domain});
      forall k | 0 <= k < |first + rest|
        ensures (first + rest)[k] !in cached && (first + rest)[k] in domains
        ensures k >= |first| ==> (first + rest)[k] != domain
      {
        if k >= |first| {
          assert (first + rest)[k] == rest[k - |first|];
          assert rest[k - |first|] in domains[1..];
        }
      }
      forall j, k | 0 <= j < k < |first + rest|
        ensures (first + rest)[j] != (first + rest)[k]
      {
        if j >= |first| {
          assert (first + rest)[j] == rest[j - |first|];
          assert (first + rest)[k] == rest[k - |first|];
        }
      }
    }
  }

  /** Every domain of the pass is either cached or looked up. */
  lemma {:induction false} FreshDomainsCover(domains: seq<string>, cached: set<string>)
    ensures forall k :: 0 <= k < |domains| ==> domains[k] in cached || domains[k] in FreshDomains(domains, cached)
    decreases |domains|
  {
    if |domains| > 0 {
      var domain := domains[0];
      FreshDomainsCover(domains[1..], cached + {domain});
      var first := if domain in cached then [] else [domain];
      var rest := FreshDomains(domains[1..], cached + {domain});
      assert FreshDomains(domains, cached) == first + rest;
      forall k | 0 <= k < |domains|
        ensures domains[k] in cached || domains[k] in first + rest
      {
        if k > 0 {
          assert domains[k] == domains[1..][k - 1];
        }
      }
    }
  }

  /** A record half looks no zone up. */
  lemma TouchLookups(hostname: string, ip: string, token: string, zone: Zone, api: Api)
    ensures ZoneLookups(Touch(hostname, ip, token, zone, api).api.log) == ZoneLookups(api.log)
  {
    var found := FindRecord(token, zone, hostname, ip, api);
    ZoneLookupsSnoc(api.log, ListRecords(token, zone.id, hostname));
    if found.result.Ok? && found.result.value.Some? {
      var sent := found.result.value.value.(content := ip);
      ZoneLookupsSnoc(found.api.log, PutRecord(token, sent.zoneId, sent.id, sent));
    }
  }

  /** One hostname's visit looks its domain up exactly when the cache
      does not hold it, whatever the outcome. */
  lemma VisitLookups(hostname: string, domain: string, ip: string, token: string,
                     zones: map<string, Zone>, api: Api)
    ensures var r := Visit(hostname, domain, ip, token, zones, api);
        ZoneLookups(r.api.log) == ZoneLookups(api.log) + if domain in zones then [] else [domain]
  {
    var z := CachedZone(zones, domain, token, api);
    if domain !in zones {
      ZoneLookupsSnoc(api.log, ListZones(token, domain));
    }
    if z.result.Ok? {
      TouchLookups(hostname, ip, token, z.result.value, z.api);
    }
  }

  /** A pass that succeeds looks up exactly the fresh domains: one lookup
      per distinct domain the cache did not hold. */
  lemma {:induction false} PassLookups(hostnames: seq<string>, domains: seq<string>, ip: string, token: string,
                                       zones: map<string, Zone>, api: Api)
    requires |domains| == |hostnames|
    ensures var r := Pass(hostnames, domains, ip, token, zones, api);
      var bound := ZoneLookups(api.log) + FreshDomains(domains, zones.Keys);
      && ZoneLookups(api.log) <= ZoneLookups(r.api.log) <= bound
      && (r.result.Ok? ==> ZoneLookups(r.api.log) == bound)
    decreases |hostnames|
  {
    var before := ZoneLookups(api.log);
    if |hostnames| == 0 {
      assert before + [] == before;
    } else {
      var visit := Visit(hostnames[0], domains[0], ip, token, zones, api);
      var domain := domains[0];
      var first := if domain in zones.Keys then [] else [domain];
      var more := FreshDomains(domains[1..], zones.Keys + {domain});
      assert FreshDomains(domains, zones.Keys) == first + more;
      VisitLookups(hostnames[0], domains[0], ip, token, zones, api);
      var middle := ZoneLookups(visit.api.log);
      assert middle == before + first;
      if visit.result.Err? {
        PrefixWiden(before, first, more, middle);
      } else {
        var zones' := zones[domain := visit.result.value];
        assert zones'.Keys == zones.Keys + {domain};
        var rest := Pass(hostnames[1..], domains[1..], ip, token, zones', visit.api);
        assert Pass(hostnames, domains, ip, token, zones, api) == rest;
        PassLookups(hostnames[1..], domains[1..], ip, token, zones', visit.api);
        PrefixWiden(before, first, more, ZoneLookups(rest.api.log));
        AppendAssociative(before, first, more);
      }
    }
  }

  /** With a cache that agrees with the store, a visit that succeeds uses
      the store's zone for the hostname's domain. */
  lemma VisitZone(hostname: string, domain: string, ip: string, token: string,
                  zones: map<string, Zone>, api: Api)
    requires CacheAgrees(zones, api.store)
    ensures var r := Visit(hostname, domain, ip, token, zones, api);
        r.result.Ok? ==> domain in api.store.zones && r.result.value == api.store.zones[domain]
  {
  }

  /** The zone cache never disagrees with the store: a pass that starts
      with an agreeing cache ends with one. */
  lemma {:induction false} PassCacheAgrees(hostnames: seq<string>, domains: seq<string>, ip: string, token: string,
                                           zones: map<string, Zone>, api: Api)
    requires |domains| == |hostnames|
    requires CacheAgrees(zones, api.store)
    ensures var r := Pass(hostnames, domains, ip, token, zones, api);
      r.result.Ok? ==> CacheAgrees(r.result.value, r.api.store)
    decreases |hostnames|
  {
    if |hostnames| > 0 {
      var domain := domains[0];
      var visit := Visit(hostnames[0], domains[0], ip, token, zones, api);
      if visit.result.Ok? {
        VisitZone(hostnames[0], domains[0], ip, token, zones, api);
        var zones' := zones[domain := visit.result.value];
        assert CacheAgrees(zones', visit.api.store);
        PassCacheAgrees(hostnames[1..], domains[1..], ip, token, zones', visit.api);
      }
    }
  }

  /** A record half changes at most the content of a record the store
      holds, and keeps the store well formed. */
  lemma TouchChangesOnlyContent(hostname: string, ip: string, token: string, zone: Zone, api: Api)
    requires WellFormed(api.store)
    ensures var r := Touch(hostname, ip, token, zone, api);
      && WellFormed(r.api.store) && OnlyContentChanged(api.store, r.api.store)
      && AtMostOneRecordChanged(api.store, r.api.store)
  {
    var found := FindRecord(token, zone, hostname, ip, api);
    if found.result.Ok? && found.result.value.Some? {
      var record := found.result.value.value;
      assert record.zoneId == zone.id;
      PutChangesOnlyContent(found.api, token, record, ip);
      var r := Touch(hostname, ip, token, zone, api);
      assert ChangedAtMost(api.store, r.api.store, record.zoneId, record.id);
    } else {
      OnlyContentChangedReflexive(api.store);
      AtMostOneRecordChangedReflexive(api.store);
    }
  }

  /** A visit changes at most the content of a record the store holds, and
      keeps the store well formed. */
  lemma VisitChangesOnlyContent(hostname: string, domain: string, ip: string, token: string,
                                zones: map<string, Zone>, api: Api)
    requires WellFormed(api.store)
    ensures var r := Visit(hostname, domain, ip, token, zones, api);
      && WellFormed(r.api.store) && OnlyContentChanged(api.store, r.api.store)
      && AtMostOneRecordChanged(api.store, r.api.store)
  {
    var z := CachedZone(zones, domain, token, api);
    if z.result.Ok? {
      TouchChangesOnlyContent(hostname, ip, token, z.result.value, z.api);
    } else {
      OnlyContentChangedReflexive(api.store);
      AtMostOneRecordChangedReflexive(api.store);
    }
  }

  /** A pass changes at most record contents and keeps the store well formed. */
  lemma {:induction false} PassChangesOnlyContent(hostnames: seq<string>, domains: seq<string>, ip: string, token: string,
                                                  zones: map<string, Zone>, api: Api)
    requires |domains| == |hostnames|
    requires WellFormed(api.store)
    ensures var r := Pass(hostnames, domains, ip, token, zones, api);
      WellFormed(r.api.store) && OnlyContentChanged(api.store, r.api.store)
    decreases |hostnames|
  {
    if |hostnames| > 0 {
      var visit := Visit(hostnames[0], domains[0], ip, token, zones, api);
      VisitChangesOnlyContent(hostnames[0], domains[0], ip, token, zones, api);
      if visit.result.Ok? {
        var zones' := zones[domains[0] := visit.result.value];
        var rest := Pass(hostnames[1..], domains[1..], ip, token, zones', visit.api);
        assert Pass(hostnames, domains, ip, token, zones, api) == rest;
        PassChangesOnlyContent(hostnames[1..], domains[1..], ip, token, zones', visit.api);
        OnlyContentChangedTransitive(api.store, visit.api.store, rest.api.store);
      }
    }
  }

  /** Whether one hostname of a pass can be written: the token is
      accepted, the hostname's domain names a zone, and that zone holds a
      record of the hostname with the address family's type. */
  predicate Updatable(store: Store, token: string, hostname: string, domain: string, ip: string)
  {
    && token in store.tokens && domain in store.zones
    && HoldsRecord(store, store.zones[domain].id, hostname, RecordType(ip))
  }

  /** Changing record contents does not change what can be written. */
  lemma UpdatableKept(before: Store, after: Store, token: string, hostname: string, domain: string, ip: string)
    requires OnlyContentChanged(before, after)
    ensures Updatable(before, token, hostname, domain, ip) <==> Updatable(after, token, hostname, domain, ip)
  {
    if domain in before.zones {
      HoldsKept(before, after, before.zones[domain].id, hostname, RecordType(ip));
    }
  }

  /** The record half succeeds exactly when the token is accepted and the
      zone holds a record of the hostname with the address family's type. */
  lemma TouchSucceeds(hostname: string, ip: string, token: string, zone: Zone, api: Api)
    requires WellFormed(api.store)
    ensures Touch(hostname, ip, token, zone, api).result.Ok?
            <==> token in api.store.tokens && HoldsRecord(api.store, zone.id, hostname, RecordType(ip))
  {
    var found := FindRecord(token, zone, hostname, ip, api);
    if Touch(hostname, ip, token, zone, api).result.Ok? {
      var records := api.store.records[zone.id];
      var j :| 0 <= j < |records| && records[j] == found.result.value.value;
    }
    if token in api.store.tokens && HoldsRecord(api.store, zone.id, hostname, RecordType(ip)) {
      var records := api.store.records[zone.id];
      FirstOfTypeHolds(api.store, zone.id, hostname, RecordType(ip));
      var record := found.result.value.value;
      var j :| 0 <= j < |records| && records[j] == record;
      assert record.zoneId == zone.id;
      assert HasRecordId(records, record.id);
    }
  }

  /** The records of a name include one of a type exactly when the zone
      holds a record of that name and type. */
  lemma FirstOfTypeHolds(store: Store, zoneId: string, name: string, rrType: string)
    requires zoneId in store.records
    ensures FirstOfType(Named(store.records[zoneId], name), rrType).Some? <==> HoldsRecord(store, zoneId, name, rrType)
  {
    var records := store.records[zoneId];
    var first := FirstOfType(Named(records, name), rrType);
    if first.Some? {
      assert first.value in Named(records, name);
    }
    if HoldsRecord(store, zoneId, name, rrType) {
      var k :| 0 <= k < |records| && records[k].name == name && records[k].rrType == rrType;
      assert records[k] in Named(records, name);
    }
  }

  /** With a cache that agrees with the store, a visit succeeds exactly
      when its hostname can be written. */
  lemma VisitSucceeds(hostname: string, domain: string, ip: string, token: string,
                      zones: map<string, Zone>, api: Api)
    requires WellFormed(api.store) && CacheAgrees(zones, api.store)
    ensures Visit(hostname, domain, ip, token, zones, api).result.Ok?
            <==> Updatable(api.store, token, hostname, domain, ip)
  {
    var z := CachedZone(zones, domain, token, api);
    if z.result.Ok? {
      TouchSucceeds(hostname, ip, token, z.result.value, z.api);
    }
  }

  /** A visit that succeeds leaves a cache, with its zone added, that
      agrees with the store, and a store that differs only in contents. */
  lemma VisitKeepsCache(hostname: string, domain: string, ip: string, token: string,
                        zones: map<string, Zone>, api: Api)
    requires WellFormed(api.store) && CacheAgrees(zones, api.store)
    ensures var visit := Visit(hostname, domain, ip, token, zones, api);
      visit.result.Ok? ==>
        && CacheAgrees(zones[domain := visit.result.value], visit.api.store)
        && WellFormed(visit.api.store) && OnlyContentChanged(api.store, visit.api.store)
  {
    VisitZone(hostname, domain, ip, token, zones, api);
    VisitChangesOnlyContent(hostname, domain, ip, token, zones, api);
  }

  /** Every hostname of a list can be written exactly when the first can
      and, after a change of contents, every later one can. */
  lemma AllUpdatableCons(before: Store, after: Store, token: string, hostnames: seq<string>, domains: seq<string>, ip: string)
    requires |domains| == |hostnames| > 0
    requires OnlyContentChanged(before, after)
    ensures (forall k :: 0 <= k < |hostnames| ==> Updatable(before, token, hostnames[k], domains[k], ip))
            <==> && Updatable(before, token, hostnames[0], domains[0], ip)
                 && forall k :: 0 <= k < |hostnames| - 1 ==> Updatable(after, token, hostnames[1..][k], domains[1..][k], ip)
  {
    forall k | 1 <= k < |hostnames|
      ensures Updatable(before, token, hostnames[k], domains[k], ip)
              <==> Updatable(after, token, hostnames[1..][k - 1], domains[1..][k - 1], ip)
    {
      assert hostnames[1..][k - 1] == hostnames[k] && domains[1..][k - 1] == domains[k];
      UpdatableKept(before, after, token, hostnames[k], domains[k], ip);
    }
  }

  /** With a cache that agrees with the store, a pass succeeds exactly
      when every one of its hostnames can be written in the store it
      starts from: earlier writes change contents only. */
  lemma {:induction false} PassSucceeds(hostnames: seq<string>, domains: seq<string>, ip: string, token: string,
                                        zones: map<string, Zone>, api: Api)
    requires |domains| == |hostnames|
    requires WellFormed(api.store) && CacheAgrees(zones, api.store)
    ensures Pass(hostnames, domains, ip, token, zones, api).result.Ok?
            <==> forall k :: 0 <= k < |hostnames| ==> Updatable(api.store, token, hostnames[k], domains[k], ip)
    decreases |hostnames|
  {
    if |hostnames| > 0 {
      var visit := Visit(hostnames[0], domains[0], ip, token, zones, api);
      VisitSucceeds(hostnames[0], domains[0], ip, token, zones, api);
      if visit.result.Ok? {
        var zones' := zones[domains[0] := visit.result.value];
        var rest := Pass(hostnames[1..], domains[1..], ip, token, zones', visit.api);
        assert Pass(hostnames, domains, ip, token, zones, api) == rest;
        VisitKeepsCache(hostnames[0], domains[0], ip, token, zones, api);
        PassSucceeds(hostnames[1..], domains[1..], ip, token, zones', visit.api);
        AllUpdatableCons(api.store, visit.api.store, token, hostnames, domains, ip);
      }
    }
  }

  /** `informAPI` looks each distinct domain up once: its lookups are the
      domains of its hostnames, first occurrences only. */
  lemma InformApiLookups(hostnames: seq<string>, ip: string, name: string, token: string, api: Api)
    ensures var r := InformApi(hostnames, ip, name, token, api);
      var looked := FreshDomains(Domains(hostnames, name), {});
      var before := ZoneLookups(api.log);
      && before <= ZoneLookups(r.api.log) <= before + looked
      && NoDuplicates(ZoneLookups(r.api.log)[|before|..])
      && NoDuplicates(looked)
      && (r.result.Ok? ==> ZoneLookups(r.api.log) == before + looked)
      && (forall k :: 0 <= k < |hostnames| ==> ZoneName(hostnames[k], name) in looked)
  {
    var r := InformApi(hostnames, ip, name, token, api);
    var domains := Domains(hostnames, name);
    var looked := FreshDomains(domains, {});
    var before := ZoneLookups(api.log);
    var empty: map<string, Zone> := map[];
    assert empty.Keys == {};
    PassLookups(hostnames, domains, ip, token, empty, api);
    FreshDomainsDistinct(domains, {});
    FreshDomainsCover(domains, {});
    var after := ZoneLookups(r.api.log);
    assert after[|before|..] <= looked by {
      assert after <= before + looked;
      assert (before + looked)[|before|..] == looked;
    }
    NoDuplicatesPrefix(after[|before|..], looked);
  }

  /** `informAPI` that succeeds writes each hostname once, in order. */
  lemma InformApiTargets(hostnames: seq<string>, ip: string, name: string, token: string, api: Api)
    ensures var r := InformApi(hostnames, ip, name, token, api);
      r.result.Ok? ==> WriteTargets(Writes(r.api.log)) == WriteTargets(Writes(api.log)) + Targets(hostnames, ip)
  {
    PassTargets(hostnames, Domains(hostnames, name), ip, token, map[], api);
  }

  /** Every call of `informAPI` carries the bearer token. */
  lemma InformApiTokens(hostnames: seq<string>, ip: string, name: string, token: string, api: Api)
    ensures TokenFrom(InformApi(hostnames, ip, name, token, api).api.log, |api.log|, token)
  {
    PassTokens(hostnames, Domains(hostnames, name), ip, token, map[], api);
  }

  /** `informAPI` changes at most record contents and keeps the store well formed. */
  lemma InformApiChangesOnlyContent(hostnames: seq<string>, ip: string, name: string, token: string, api: Api)
    requires WellFormed(api.store)
    ensures var r := InformApi(hostnames, ip, name, token, api);
      WellFormed(r.api.store) && OnlyContentChanged(api.store, r.api.store)
  {
    PassChangesOnlyContent(hostnames, Domains(hostnames, name), ip, token, map[], api);
  }

  /** `informAPI` succeeds exactly when every hostname can be written:
      the token is accepted, its zone name names a zone, and that zone
      holds a record of the hostname with the address family's type. */
  lemma InformApiSucceeds(hostnames: seq<string>, ip: string, name: string, token: string, api: Api)
    requires WellFormed(api.store)
    ensures InformApi(hostnames, ip, name, token, api).result.Ok?
            <==> forall k :: 0 <= k < |hostnames| ==>
                   Updatable(api.store, token, hostnames[k], ZoneName(hostnames[k], name), ip)
  {
    var empty: map<string, Zone> := map[];
    PassSucceeds(hostnames, Domains(hostnames, name), ip, token, empty, api);
  }

  // ---------------------------------------------------------------- requests

  /** `parseBasicAuth`: no credentials (`{}`) when the header is missing or
      empty, otherwise the decoded and split header. */
  function ParseBasicAuth(authorization: Option<string>, decode: string -> Option<string>): (r: Result<Option<Credentials>>)
    ensures !Truthy(authorization) ==> r == Ok(None)
    ensures Truthy(authorization) ==> r.Ok? ==> r.value.Some?
    ensures Truthy(authorization) && r.Ok? ==>
              var data := AuthorizationData(authorization.value);
              decode(data) == Some(r.value.value.username + ":" + r.value.value.password)
              && ':' !in r.value.value.username
    ensures Truthy(authorization) && r.Err? ==>
              r.error == BadRequest(InvalidAuthorization) || r.error == Engine(DecodeFailed)
    ensures Truthy(authorization) ==>
              var data := AuthorizationData(authorization.value);
              && (r == Err(Engine(DecodeFailed)) <==> decode(data).None?)
              && (r == Err(BadRequest(InvalidAuthorization))
                  <==> decode(data).Some? && SplitCredentials(decode(data).value).None?)
              && (r.Ok? <==> decode(data).Some? && SplitCredentials(decode(data).value).Some?)
              && (r.Ok? ==> r.value == SplitCredentials(decode(data).value))
  {
    if !Truthy(authorization) then Ok(None)
    else
      match ParseAuthorization(authorization.value, decode)
      case Ok(credentials) => Ok(Some(credentials))
      case Err(e) => Err(e)
  }

  /** `(password || params.get('token')) || ''`: the bearer token. */
  function ApiToken(credentials: Option<Credentials>, query: seq<(string, string)>): string
  {
    if credentials.Some? && credentials.value.password != "" then credentials.value.password
    else if Get(query, "token").Some? then Get(query, "token").value
    else ""
  }

  /** The token is the Basic-auth password when there is a non-empty one,
      else the `token` parameter, else empty. */
  lemma ApiTokenSource(credentials: Option<Credentials>, query: seq<(string, string)>)
    ensures var token := ApiToken(credentials, query);
      && (credentials.Some? && credentials.value.password != "" ==> token == credentials.value.password)
      && (token != "" ==> (credentials.Some? && token == credentials.value.password) || Get(query, "token") == Some(token))
      && (token == "" <==> !(credentials.Some? && credentials.value.password != "") && !Truthy(Get(query, "token")))
  {
  }

  /** `username || ''`: the zone name the hostnames may end with. */
  function UserName(credentials: Option<Credentials>): string
  {
    if credentials.Some? then credentials.value.username else ""
  }

  /** `for (const ip of ips) await informAPI(hostnames, ip.trim(), …)`:
      one pass per address, in order, stopping at the first failure. */
  function UpdateAll(ips: seq<string>, hostnames: seq<string>, name: string, token: string, api: Api): (r: Step<()>)
    ensures api.log <= r.api.log
    ensures r.api.store.tokens == api.store.tokens && r.api.store.zones == api.store.zones
    ensures r.result.Err? ==> r.result.error.CloudflareApi? || r.result.error.Engine?
    decreases |ips|
  {
    if |ips| == 0 then Step(Ok(()), api)
    else
      var inform := InformApi(hostnames, Trim(ips[0]), name, token, api);
      if inform.result.Err? then inform
      else UpdateAll(ips[1..], hostnames, name, token, inform.api)
  }

  /** An update that succeeds writes every hostname once per address, in
      address order, with the trimmed address and its record type. */
  lemma {:induction false} UpdateAllTargets(ips: seq<string>, hostnames: seq<string>, name: string, token: string, api: Api)
    ensures var r := UpdateAll(ips, hostnames, name, token, api);
      r.result.Ok? ==> WriteTargets(Writes(r.api.log)) == WriteTargets(Writes(api.log)) + Fanout(ips, hostnames)
    decreases |ips|
  {
    if |ips| > 0 {
      var ip := Trim(ips[0]);
      var inform := InformApi(hostnames, ip, name, token, api);
      if inform.result.Ok? {
        var rest := UpdateAll(ips[1..], hostnames, name, token, inform.api);
        assert UpdateAll(ips, hostnames, name, token, api) == rest;
        if rest.result.Ok? {
          calc {
            WriteTargets(Writes(rest.api.log));
            { UpdateAllTargets(ips[1..], hostnames, name, token, inform.api); }
            WriteTargets(Writes(inform.api.log)) + Fanout(ips[1..], hostnames);
            { InformApiTargets(hostnames, ip, name, token, api); }
            WriteTargets(Writes(api.log)) + Targets(hostnames, ip) + Fanout(ips[1..], hostnames);
            { AppendAssociative(WriteTargets(Writes(api.log)), Targets(hostnames, ip), Fanout(ips[1..], hostnames)); }
            WriteTargets(Writes(api.log)) + (Targets(hostnames, ip) + Fanout(ips[1..], hostnames));
            { assert Fanout(ips, hostnames) == Targets(hostnames, ip) + Fanout(ips[1..], hostnames); }
            WriteTargets(Writes(api.log)) + Fanout(ips, hostnames);
          }
        }
      }
    }
  }

  /** Every call of an update carries the bearer token. */
  lemma {:induction false} UpdateAllTokens(ips: seq<string>, hostnames: seq<string>, name: string, token: string, api: Api)
    ensures TokenFrom(UpdateAll(ips, hostnames, name, token, api).api.log, |api.log|, token)
    decreases |ips|
  {
    if |ips| > 0 {
      var inform := InformApi(hostnames, Trim(ips[0]), name, token, api);
      InformApiTokens(hostnames, Trim(ips[0]), name, token, api);
      if inform.result.Ok? {
        var rest := UpdateAll(ips[1..], hostnames, name, token, inform.api);
        UpdateAllTokens(ips[1..], hostnames, name, token, inform.api);
        TokenFromExtend(inform.api.log, rest.api.log, |api.log|, token);
      }
    }
  }

  /** An update changes at most record contents and keeps the store well formed. */
  lemma {:induction false} UpdateAllChangesOnlyContent(ips: seq<string>, hostnames: seq<string>, name: string, token: string, api: Api)
    requires WellFormed(api.store)
    ensures var r := UpdateAll(ips, hostnames, name, token, api);
      WellFormed(r.api.store) && OnlyContentChanged(api.store, r.api.store)
    decreases |ips|
  {
    if |ips| > 0 {
      var inform := InformApi(hostnames, Trim(ips[0]), name, token, api);
      InformApiChangesOnlyContent(hostnames, Trim(ips[0]), name, token, api);
      if inform.result.Ok? {
        var rest := UpdateAll(ips[1..], hostnames, name, token, inform.api);
        UpdateAllChangesOnlyContent(ips[1..], hostnames, name, token, inform.api);
        OnlyContentChangedTransitive(api.store, inform.api.store, rest.api.store);
      }
    }
  }

  /** Every hostname can be written for every address exactly when they
      can for the first address and, after a change of contents, for every
      later one. */
  lemma EveryAddressCons(before: Store, after: Store, token: string, ips: seq<string>,
                         hostnames: seq<string>, domains: seq<string>)
    requires |ips| > 0 && |domains| == |hostnames|
    requires OnlyContentChanged(before, after)
    ensures (forall i, k :: 0 <= i < |ips| && 0 <= k < |hostnames| ==>
               Updatable(before, token, hostnames[k], domains[k], Trim(ips[i])))
            <==> && (forall k :: 0 <= k < |hostnames| ==> Updatable(before, token, hostnames[k], domains[k], Trim(ips[0])))
                 && (forall i, k :: 0 <= i < |ips| - 1 && 0 <= k < |hostnames| ==>
                       Updatable(after, token, hostnames[k], domains[k], Trim(ips[1..][i])))
  {
    if forall i, k :: 0 <= i < |ips| && 0 <= k < |hostnames| ==>
         Updatable(before, token, hostnames[k], domains[k], Trim(ips[i])) {
      forall i, k | 0 <= i < |ips| - 1 && 0 <= k < |hostnames|
        ensures Updatable(after, token, hostnames[k], domains[k], Trim(ips[1..][i]))
      {
        assert ips[1..][i] == ips[i + 1];
        UpdatableKept(before, after, token, hostnames[k], domains[k], Trim(ips[i + 1]));
      }
    }
    if && (forall k :: 0 <= k < |hostnames| ==> Updatable(before, token, hostnames[k], domains[k], Trim(ips[0])))
       && (forall i, k :: 0 <= i < |ips| - 1 && 0 <= k < |hostnames| ==>
             Updatable(after, token, hostnames[k], domains[k], Trim(ips[1..][i]))) {
      forall i, k | 1 <= i < |ips| && 0 <= k < |hostnames|
        ensures Updatable(before, token, hostnames[k], domains[k], Trim(ips[i]))
      {
        assert ips[1..][i - 1] == ips[i];
        UpdatableKept(before, after, token, hostnames[k], domains[k], Trim(ips[i]));
      }
    }
  }

  /** An update succeeds exactly when every hostname can be written for
      every address, all judged in the store it starts from: the passes
      before change record contents only. */
  lemma {:induction false} UpdateAllSucceeds(ips: seq<string>, hostnames: seq<string>, name: string, token: string, api: Api)
    requires WellFormed(api.store)
    ensures UpdateAll(ips, hostnames, name, token, api).result.Ok?
            <==> forall i, k :: 0 <= i < |ips| && 0 <= k < |hostnames| ==>
                   Updatable(api.store, token, hostnames[k], ZoneName(hostnames[k], name), Trim(ips[i]))
    decreases |ips|
  {
    if |ips| > 0 {
      var inform := InformApi(hostnames, Trim(ips[0]), name, token, api);
      InformApiSucceeds(hostnames, Trim(ips[0]), name, token, api);
      if inform.result.Ok? {
        var rest := UpdateAll(ips[1..], hostnames, name, token, inform.api);
        assert UpdateAll(ips, hostnames, name, token, api) == rest;
        InformApiChangesOnlyContent(hostnames, Trim(ips[0]), name, token, api);
        UpdateAllSucceeds(ips[1..], hostnames, name, token, inform.api);
        EveryAddressCons(api.store, inform.api.store, token, ips, hostnames, Domains(hostnames, name));
      }
    }
  }

  /** Whether a request reaches the update stage: HTTPS, an `/update`
      path, and an Authorization header or `token=` in the URL. */
  predicate Admitted(req: Request)
  {
    && !HttpsViolated(req)
    && req.pathname != "/favicon.ico" && req.pathname != "/robots.txt"
    && EndsWith(req.pathname, "/update")
    && (req.authorization.Some? || Includes(req.url, "token="))
  }

  /** `handleRequest`: the HTTPS gate, then the routing, then credentials,
      parameters and one update pass per address. */
  function HandleRequest(req: Request, decode: string -> Option<string>, api: Api): (r: Step<Response>)
    ensures HttpsViolated(req) ==> r == Step(Err(BadRequest(UseHttps)), api)
    ensures !HttpsViolated(req) && (req.pathname == "/favicon.ico" || req.pathname == "/robots.txt")
            ==> r == Step(Ok(NoContent), api)
    ensures !HttpsViolated(req) && req.pathname != "/favicon.ico" && req.pathname != "/robots.txt"
            && (!EndsWith(req.pathname, "/update") || (req.authorization.None? && !Includes(req.url, "token=")))
            ==> r == Step(Ok(NotFound), api)
    ensures r.result.Ok? ==> r.result.value in {NoContent, NotFound, Good}
    ensures r.result == Ok(Good) ==> Admitted(req)
    ensures Admitted(req) && ParseBasicAuth(req.authorization, decode).Ok?
            && (HostnameParam(req.query).None? || AddressParam(req).None?)
            ==> r == Step(Err(BadRequest(NeedBoth)), api)
    ensures r.result == Err(BadRequest(NeedBoth)) ==>
              Admitted(req) && (HostnameParam(req.query).None? || AddressParam(req).None?)
    ensures Admitted(req) && ParseBasicAuth(req.authorization, decode).Err?
            ==> r == Step(Err(ParseBasicAuth(req.authorization, decode).error), api)
    ensures !Admitted(req) ==> r.api == api
    ensures api.log <= r.api.log
    ensures r.api.store.tokens == api.store.tokens && r.api.store.zones == api.store.zones
  {
    if HttpsViolated(req) then Step(Err(BadRequest(UseHttps)), api)
    else if req.pathname == "/favicon.ico" || req.pathname == "/robots.txt" then Step(Ok(NoContent), api)
    else if !EndsWith(req.pathname, "/update") then Step(Ok(NotFound), api)
    else if req.authorization.None? && !Includes(req.url, "token=") then Step(Ok(NotFound), api)
    else
      match ParseBasicAuth(req.authorization, decode)
      case Err(e) => Step(Err(e), api)
      case Ok(credentials) =>
        var hostnameParam := HostnameParam(req.query);
        var ipsParam := AddressParam(req);
        if hostnameParam.None? || ipsParam.None? then Step(Err(BadRequest(NeedBoth)), api)
        else
          var update := UpdateAll(Split(ipsParam.value, ','), Split(hostnameParam.value, ','),
                                  UserName(credentials), ApiToken(credentials, req.query), api);
          if update.result.Err? then Step(Err(update.result.error), update.api)
          else Step(Ok(Good), update.api)
  }

  /** A request answered "good" wrote every listed hostname once per listed
      address, with the token of its credentials on every call. */
  lemma HandleRequestUpdates(req: Request, decode: string -> Option<string>, api: Api)
    ensures var r := HandleRequest(req, decode, api);
      r.result == Ok(Good) ==>
        && ParseBasicAuth(req.authorization, decode).Ok?
        && HostnameParam(req.query).Some? && AddressParam(req).Some?
        && var credentials := ParseBasicAuth(req.authorization, decode).value;
           var hostnames := Split(HostnameParam(req.query).value, ',');
           var ips := Split(AddressParam(req).value, ',');
           && WriteTargets(Writes(r.api.log)) == WriteTargets(Writes(api.log)) + Fanout(ips, hostnames)
           && TokenFrom(r.api.log, |api.log|, ApiToken(credentials, req.query))
  {
    var r := HandleRequest(req, decode, api);
    if r.result == Ok(Good) {
      var credentials := ParseBasicAuth(req.authorization, decode).value;
      var hostnames := Split(HostnameParam(req.query).value, ',');
      var ips := Split(AddressParam(req).value, ',');
      var name, token := UserName(credentials), ApiToken(credentials, req.query);
      UpdateAllTargets(ips, hostnames, name, token, api);
      UpdateAllTokens(ips, hostnames, name, token, api);
    }
  }

  /** An admitted request with good credentials and both parameters runs
      the update over the listed addresses and hostnames, and the update's
      outcome is the answer: "good" exactly when it succeeds, else its error. */
  lemma HandleRequestRunsUpdate(req: Request, decode: string -> Option<string>, api: Api)
    requires Admitted(req) && ParseBasicAuth(req.authorization, decode).Ok?
    requires HostnameParam(req.query).Some? && AddressParam(req).Some?
    ensures var r := HandleRequest(req, decode, api);
      var credentials := ParseBasicAuth(req.authorization, decode).value;
      var u := UpdateAll(Split(AddressParam(req).value, ','), Split(HostnameParam(req.query).value, ','),
                         UserName(credentials), ApiToken(credentials, req.query), api);
      && r.api == u.api
      && (r.result == Ok(Good) <==> u.result.Ok?)
      && (u.result.Err? ==> r.result == Err(u.result.error))
  {
  }

  /** Such a request is answered "good" exactly when, in the store it
      starts from, the token is accepted and every listed hostname has a
      zone holding its record of each listed address's family. */
  lemma HandleRequestGood(req: Request, decode: string -> Option<string>, api: Api)
    requires WellFormed(api.store)
    requires Admitted(req) && ParseBasicAuth(req.authorization, decode).Ok?
    requires HostnameParam(req.query).Some? && AddressParam(req).Some?
    ensures var credentials := ParseBasicAuth(req.authorization, decode).value;
      var hostnames := Split(HostnameParam(req.query).value, ',');
      var ips := Split(AddressParam(req).value, ',');
      HandleRequest(req, decode, api).result == Ok(Good)
      <==> forall i, k :: 0 <= i < |ips| && 0 <= k < |hostnames| ==>
             Updatable(api.store, ApiToken(credentials, req.query), hostnames[k],
                       ZoneName(hostnames[k], UserName(credentials)), Trim(ips[i]))
  {
    var credentials := ParseBasicAuth(req.authorization, decode).value;
    var hostnames := Split(HostnameParam(req.query).value, ',');
    var ips := Split(AddressParam(req).value, ',');
    HandleRequestRunsUpdate(req, decode, api);
    UpdateAllSucceeds(ips, hostnames, UserName(credentials), ApiToken(credentials, req.query), api);
  }

  /** Whatever the request, the store keeps its shape and well-formedness
      and only record contents change. */
  lemma HandleRequestChangesOnlyContent(req: Request, decode: string -> Option<string>, api: Api)
    requires WellFormed(api.store)
    ensures var r := HandleRequest(req, decode, api);
      WellFormed(r.api.store) && OnlyContentChanged(api.store, r.api.store)
  {
    var r := HandleRequest(req, decode, api);
    if Admitted(req) && ParseBasicAuth(req.authorization, decode).Ok?
       && HostnameParam(req.query).Some? && AddressParam(req).Some? {
      var credentials := ParseBasicAuth(req.authorization, decode).value;
      var ips, hostnames := Split(AddressParam(req).value, ','), Split(HostnameParam(req.query).value, ',');
      var name, token := UserName(credentials), ApiToken(credentials, req.query);
      assert r.api == UpdateAll(ips, hostnames, name, token, api).api;
      UpdateAllChangesOnlyContent(ips, hostnames, name, token, api);
    } else {
      assert r.api == api;
      OnlyContentChangedReflexive(api.store);
    }
  }

  /** The `catch` of `fetch`: `err.message || err.stack` as the body and
      `err.status || 500` as the status. */
  function ErrorResponse(e: Exception): (response: Response)
    ensures e.BadRequest? && e.reason != "" ==> response == Response(400, Text(e.reason))
    ensures e.Unauthorized? && e.reason != "" ==> response == Response(401, Text(e.reason))
    ensures e.CloudflareApi? && e.reason != "" ==> response == Response(500, Text(e.reason))
    ensures e.Engine? ==> response == Response(500, EngineText)
    ensures response.body == EngineText <==> e.Engine? || e.reason == ""
  {
    var message := if e.Engine? || e.reason == "" then EngineText else Text(e.reason);
    Response(ErrorStatus(e), message)
  }

  /** An exception with a reason can be read back from its response: the
      status tells the kind and the body the reason. */
  lemma ErrorResponseInjective(e1: Exception, e2: Exception)
    requires !e1.Engine? && e1.reason != "" && !e2.Engine? && e2.reason != ""
    ensures ErrorResponse(e1) == ErrorResponse(e2) <==> e1 == e2
  {
  }

  /** The worker's `fetch`: every exception becomes a response. */
  function Fetch(req: Request, decode: string -> Option<string>, api: Api): (served: Served)
  {
    var r := HandleRequest(req, decode, api);
    match r.result
    case Ok(response) => Served(response, r.api)
    case Err(e) => Served(ErrorResponse(e), r.api)
  }

  /** The request of the repository's own test: plain `http:` to
      `/update` without credentials. The HTTPS gate answers it with 400
      before any routing, so it never sees a 401. */
  lemma PlainHttpUpdateIs400(decode: string -> Option<string>, api: Api)
    ensures var req := Request("http://example.com/update?ip=192.0.2.1&hostname=home.example.com", "http:", "/update",
                               [("ip", "192.0.2.1"), ("hostname", "home.example.com")], None, None, None);
      var served := Fetch(req, decode, api);
      served.response == Response(400, Text(UseHttps)) && served.api == api
  {
  }

  /** The statuses the worker answers with, and what each one means:
      never 401, and 200 only for an admitted request that updated. */
  lemma FetchStatus(req: Request, decode: string -> Option<string>, api: Api)
    ensures var served := Fetch(req, decode, api);
      var r := HandleRequest(req, decode, api);
      && served.response.status in {200, 204, 400, 404, 500}
      && (served.response.status == 200 <==> r.result == Ok(Good))
      && (served.response.status == 400 <==> r.result.Err? && r.result.error.BadRequest?)
      && (served.response.status == 500 <==> r.result.Err? && !r.result.error.BadRequest?)
      && (served.response.status == 200 ==> Admitted(req))
      && (r.result.Err? && r.result.error.Engine? ==> served.response.body == EngineText)
      && (r.result.Err? && !r.result.error.Engine? && r.result.error.reason != ""
          ==> served.response.body == Text(r.result.error.reason))
  {
  }
}
